=== FILE: README.md ===
# financial_tool transformation core in Dafny

This project models the two pure stages of the `financial_tool` pipeline:

- The transaction cleaner (`clean_transactions` with `_ensure_required_columns`, `REQUIRED_COLUMNS` and `DEFAULT_TYPE_MAP`). It:
  - checks the required columns, failing with one `KeyError` that names every missing column;
  - parses `date` and `amount` into nullable values;
  - normalizes `type` by stripping, upper-casing and looking the value up in a table;
  - drops every row with a null in a required column.
- The summarizer (`compute_income_expense_summary`, `summary_by_category`, `summary_by_month`). It gives the INCOME / EXPENSE / NET totals, the per-category totals sorted by non-increasing total, and per-period income, expense and net.

A dataset is a `Table.Frame`: a set of column names and a sequence of rows. Each row maps column names to a nullable `Cell`, which is one of:
- `Missing` (NaN / NaT / None);
- raw `Text`;
- an exact integer `Number`;
- a parsed date `When`.

Failures are values of `Table.Result`. A `KeyError` lists the columns it names. `NotDatetime` stands for the `AttributeError` of the `.dt` accessor.

`pd.to_datetime` and `pd.to_numeric` with `errors="coerce"` are modelled by a `Cleaning.Parsers` value: two opaque partial functions from a cell to an optional date or integer. Cells that are already null, parsed dates (for `date`) or numbers (for `amount`) pass through them unchanged.

Group-and-sum is written once, generically over the key type, in module `Aggregate`, and used for categories (`Cell` keys, so a null category is a group of its own) and for periods (`string` labels).

The modules are:
- `Table`: the data model;
- `Strings`: Python's `str.strip`, `str.upper` and zero-padded digits;
- `Aggregate`: grouping, sums, lookup, sorting;
- `Cleaning`;
- `Summary`;
- `Samples`: the outcomes of the repository's tests, stated over their data.

Behaviour of the code worth noting:
- `compute_income_expense_summary` and `summary_by_month` check their columns one at a time and raise a `KeyError` for the first missing one (financial_tool/src/summary.py:35-37 and 130-132). `summary_by_category` does the same with two `if`s (lines 77-80). Only the cleaner collects every missing column into one `KeyError`.
- `summary_by_category` sorts with `sort_values`, which fixes no order among equal totals, so the model states none.
- `summary_by_month` returns its periods in the order `pd.concat` produces. The model states the set of periods and each period's values.
- After cleaning, `date` and `amount` are guaranteed non-null only when they are among the required columns, because only those columns are filtered for nulls.
- Cleaning twice gives the result of cleaning once when the table's values are normalized fixed points. This is proved for the default table (`Cleaning.CleanIdempotentByDefault`) and for any table satisfying `Cleaning.StableTypeMap`. Other tables can break it: under `{"A": "B", "B": "C"}` a type "A" becomes "B", and cleaning again turns it into "C" (`Cleaning.ChainedTableNotIdempotent`).

## Model

| member | source | states |
|---|---|---|
| Cleaning.MissingColumns | financial_tool/src/cleaning.py:29 | every listed column is required and absent from the frame, and the list is no longer than the required list |
| Cleaning.MissingColumnsMeaning | financial_tool/src/cleaning.py:29 | a column is reported missing exactly when it is required and absent from the frame |
| Cleaning.MissingColumnsAppend | financial_tool/src/cleaning.py:29 | missing columns are listed in the order of the required list (the list for `a + b` is the list for `a` followed by the list for `b`) |
| Cleaning.EnsureRequiredColumns | financial_tool/src/cleaning.py:20-31 | no error exactly when every required column is present; otherwise a single `KeyError` whose columns are exactly the required columns that are absent, and never an empty list |
| Cleaning.ParseDate | financial_tool/src/cleaning.py:76 | the result is a date or null; a null or a date is kept; any other cell becomes a date exactly when the parser accepts it, and then that date |
| Cleaning.ParseAmount | financial_tool/src/cleaning.py:79 | the result is a number or null; a null or a number is kept; any other cell becomes a number exactly when the parser accepts it, and then that number |
| Cleaning.CellText | financial_tool/src/cleaning.py:86 | text is kept as it is and a null becomes "nan"; a number becomes the decimal numeral of its value (no leading zero), after a "-" when negative; a date becomes ten characters "YYYY-MM-DD" whose three digit fields denote its year, month and day; so numbers and dates are digits and dashes only |
| Cleaning.EffectiveTypeMap | financial_tool/src/cleaning.py:83 | a non-empty table given by the caller is used as it is; no table or an empty one means the default table; the table used is never empty |
| Cleaning.NormalizeType | financial_tool/src/cleaning.py:84-90 | the normalized value is either a value of the table, or a stripped string with no lower-case letter that is not a key of the table |
| Cleaning.NormalizeCaseInsensitive | financial_tool/src/cleaning.py:88 | two raw values with the same upper case normalize alike |
| Cleaning.NormalizeIgnoresPadding | financial_tool/src/cleaning.py:87 | whitespace around a raw value does not change its normalization |
| Cleaning.NormalizeStripped | financial_tool/src/cleaning.py:87-89 | a value without surrounding whitespace normalizes to the table's entry for its upper case, or to that upper case when it is not a key |
| Cleaning.NormalizeKey | financial_tool/src/cleaning.py:89 | a padded value whose upper case is a key normalizes to that key's table value |
| Cleaning.NormalizeNotKey | financial_tool/src/cleaning.py:89 | a padded value whose upper case is not a key passes through, stripped and upper-cased |
| Cleaning.NormalizeFixedPoint | financial_tool/src/cleaning.py:84-90 | a stripped upper-case value that the table maps to itself, or not at all, normalizes to itself |
| Cleaning.NormalizeIdempotent | financial_tool/src/cleaning.py:84-90 | with a stable table, normalizing a normalized value changes nothing |
| Cleaning.DefaultKeySet | financial_tool/src/cleaning.py:10-17 | the default table's keys are exactly CREDIT, CR, INCOME, DEBIT, DR, EXPENSE |
| Cleaning.DefaultTypeMapIncome | financial_tool/src/cleaning.py:10-13 | any case and padding of CREDIT, CR or INCOME (for example " credit ") normalizes to INCOME under the default table |
| Cleaning.DefaultTypeMapExpense | financial_tool/src/cleaning.py:14-16 | any case and padding of DEBIT, DR or EXPENSE normalizes to EXPENSE under the default table |
| Cleaning.CreditIsIncome | financial_tool/src/cleaning.py:11 | the test value "credit" normalizes to INCOME under the default table |
| Cleaning.IncomeStaysIncome | financial_tool/src/cleaning.py:13 | "INCOME" normalizes to INCOME under the default table |
| Cleaning.DebitIsExpense | financial_tool/src/cleaning.py:14 | the test value "debit" normalizes to EXPENSE under the default table |
| Cleaning.DefaultTypeMapPassesThrough | financial_tool/src/cleaning.py:89 | under the default table, any other value comes out stripped and upper-cased, not mapped |
| Cleaning.DefaultTypeMapStable | financial_tool/src/cleaning.py:10-17 | the default table's values INCOME and EXPENSE are fixed points of normalization |
| Cleaning.StableByFixedValues | financial_tool/src/cleaning.py:83-90 | a table whose values are stripped, upper-case and mapped to themselves or unmapped is stable |
| Cleaning.CleanRow | financial_tool/src/cleaning.py:76-90 | a cleaned row's date is a date or null, its amount a number or null, and its type (when the frame has the column) a text |
| Cleaning.CleanRows | financial_tool/src/cleaning.py:76-90 | one cleaned row per input row, at the same position |
| Cleaning.CleanRowOtherColumns | financial_tool/src/cleaning.py:73-90 | cleaning a row leaves every column other than date, amount and type as it was, adds type only when the frame has it, and its keys are the old keys plus date and amount |
| Cleaning.CleanRowCells | financial_tool/src/cleaning.py:76-90 | a cleaned row holds the parsed date, the parsed amount and (when the frame has `type`) the normalized text of its type cell |
| Cleaning.Complete | financial_tool/src/cleaning.py:94 | a row that passes the null test holds every required column, because a column the row lacks counts as null |
| Cleaning.DropIncomplete | financial_tool/src/cleaning.py:93-94 | the kept rows are no more than the input rows and every kept row has no null in a required column |
| Cleaning.Survivors | financial_tool/src/cleaning.py:94 | output row k is input row idx[k], and the indexes strictly increase, so the relative order is kept |
| Cleaning.SurvivorsExactlyComplete | financial_tool/src/cleaning.py:93-94 | an input row is kept exactly when it has no null in a required column |
| Cleaning.DropIncompleteKeepsComplete | financial_tool/src/cleaning.py:93-94 | rows that are all complete are all kept, unchanged and in order |
| Cleaning.CleanTransactions | financial_tool/src/cleaning.py:34-98 | fails exactly when a required column is missing (a `KeyError` naming all of them) or `date` or `amount` is absent; otherwise keeps the column set, returns no more rows than it got, and every returned row has no null in a required column |
| Cleaning.CleanKeepsExactlyCompleteRows | financial_tool/src/cleaning.py:93-98 | the output is exactly the cleaned input rows that are complete, in their original order, renumbered from zero |
| Cleaning.CleanParsesRow | financial_tool/src/cleaning.py:76-90 | each output row holds its input row's date and amount parsed (a rejected value in a non-required column stays as null) and its type normalized through the effective table |
| Cleaning.CleanedRequiredAreParsed | financial_tool/src/cleaning.py:93-94 | when date and amount are required, every output row has a parsed date and a number |
| Cleaning.CleanedDefaultsAreParsed | financial_tool/src/cleaning.py:9 | with the default required columns, no output row has a null or unparsed date or amount |
| Cleaning.CleanPassesOtherColumns | financial_tool/src/cleaning.py:82-90 | every column other than date, amount and type passes through to the output unchanged, and no type column is created when the frame has none |
| Cleaning.CleanKeepsWellFormed | financial_tool/src/cleaning.py:73-98 | a frame whose rows all have exactly its columns cleans to a frame with the same property |
| Cleaning.CleanEmptyTableIsDefault | financial_tool/src/cleaning.py:83 | no table and an empty table both mean the default table |
| Cleaning.CleanRowIdempotent | financial_tool/src/cleaning.py:76-90 | with a stable table, cleaning a cleaned row again gives the same row |
| Cleaning.CleanIdempotent | financial_tool/src/cleaning.py:71-98 | with a stable table, cleaning the cleaned frame again returns the same frame |
| Cleaning.CleanIdempotentByDefault | financial_tool/src/cleaning.py:10-17 | with the default table, cleaning is idempotent |
| Cleaning.ChainedTableNotIdempotent | financial_tool/src/cleaning.py:89 | under a table {a: b, b: c} with c ≠ b, `a` normalizes to `b`, and normalizing again gives `c`, so normalizing twice differs from normalizing once |
| Strings.Strip | financial_tool/src/cleaning.py:87 | the result has no whitespace at either end and is the input minus whitespace prefix and suffix |
| Strings.StripUnique | financial_tool/src/cleaning.py:87 | whitespace, then a stripped middle, then whitespace strips to exactly that middle |
| Strings.StripIgnoresPadding | financial_tool/src/cleaning.py:87 | extra surrounding whitespace does not change the strip |
| Strings.Upper | financial_tool/src/cleaning.py:88 | same length; each lower-case ASCII letter becomes its capital and every other character is kept, so no lower-case letter is left and whitespace stays where it was |
| Strings.IntString | financial_tool/src/cleaning.py:86 | a non-negative integer's text is a numeral with no leading zero that denotes it; a negative one's is "-" followed by the numeral of its magnitude |
| Strings.UpperStripCommute | financial_tool/src/cleaning.py:87-88 | upper-casing and stripping commute |
| Summary.AmountOf | financial_tool/src/summary.py:39 | a number adds itself to a sum and a null or other cell adds 0, as `sum()` skips nulls |
| Summary.TypeTotal | financial_tool/src/summary.py:39-40 | when no row has type `t`, the total for `t` is 0 |
| Summary.IncomeExpenseSummary | financial_tool/src/summary.py:8-49 | fails exactly when `amount` or `type` is missing (`amount` checked first); otherwise exactly three lines INCOME, EXPENSE, NET in that order with NET = INCOME − EXPENSE |
| Summary.IncomeExpenseOfRow | financial_tool/src/summary.py:39-40 | one row counts as income exactly when its type is INCOME and as an expense exactly when it is EXPENSE |
| Summary.IncomeExpenseAdditive | financial_tool/src/summary.py:39-41 | the totals of a concatenation are the sums of the parts' totals (so an empty frame totals 0) |
| Summary.IncomeExpenseIgnoresOtherTypes | financial_tool/src/summary.py:39-40 | a row of any other type, or with a null type, does not change the summary |
| Summary.Entries | financial_tool/src/summary.py:89-91 | one (key, amount) pair per row, at the same position: the row's cell in the grouping column and the amount `sum()` adds for it |
| Summary.EntriesKeys | financial_tool/src/summary.py:90 | the group keys are exactly the cells the rows hold in the grouping column, nulls included |
| Summary.Kept | financial_tool/src/summary.py:83-87 | without a `type` column, or with both flags set, every row is kept; a row whose type is neither INCOME nor EXPENSE is always kept |
| Summary.FilterByType | financial_tool/src/summary.py:82-87 | every row the type filter keeps occurs as often as in the input, and no other row occurs |
| Summary.FilterKeepsAll | financial_tool/src/summary.py:83-87 | with both flags set, or without a type column, nothing is filtered |
| Summary.SummaryByCategory | financial_tool/src/summary.py:52-95 | fails exactly when `category` or `amount` is missing (`category` first); otherwise one line per distinct category of the filtered rows, each with that category's total, totals non-increasing |
| Summary.CategoryTotal | financial_tool/src/summary.py:89-95 | the category totals add up to the total amount of the filtered rows |
| Summary.FilteredTotal | financial_tool/src/summary.py:83-87 | over INCOME/EXPENSE rows the filtered total is the income total if included plus the expense total if included |
| Summary.CategoryTotalMatchesSummary | financial_tool/src/summary.py:82-95 | when every row is typed INCOME or EXPENSE, the category totals add up to the INCOME total if income is included plus the EXPENSE total if expenses are |
| Summary.PeriodLabel | financial_tool/src/summary.py:135 | a null date's label is "NaT", and no date's label is "NaT" |
| Summary.PeriodLabelFormat | financial_tool/src/summary.py:135 | a date's label starts with four digits denoting its year; for months it is then "-" and two digits denoting the month ("YYYY-MM"), for quarters "Q" and a digit denoting the quarter ("YYYYQn"), and for years nothing more ("YYYY") |
| Summary.DatesParsed | financial_tool/src/summary.py:135 | the model's per-cell stand-in for pandas' dtype test: it holds exactly when every `date` cell is a date or null |
| Summary.PeriodLabelIdentifiesPeriod | financial_tool/src/summary.py:135 | two dates get the same label exactly when they share the year and (for months) the month or (for quarters) the quarter |
| Summary.PeriodEntries | financial_tool/src/summary.py:137-149 | no more entries than rows, and none when no row has the type |
| Summary.PeriodEntriesOfRow | financial_tool/src/summary.py:137-149 | a single row gives one entry, holding its period label and its amount, when its type is `t`, and no entry otherwise |
| Summary.PeriodEntriesAppend | financial_tool/src/summary.py:137-149 | the entries of a concatenation are the entries of its parts in order, so, with the previous row, each row of type `t` contributes exactly its own (period, amount) entry |
| Summary.PeriodEntriesTotal | financial_tool/src/summary.py:137-149 | the per-period entries of a type add up to that type's total |
| Summary.PeriodEntriesKeys | financial_tool/src/summary.py:137-149 | the periods of a type are exactly the labels of the rows of that type |
| Summary.CombineRows | financial_tool/src/summary.py:151-156 | one line per period, holding the looked-up income and expense (0 when absent) and their difference |
| Summary.MonthRows | financial_tool/src/summary.py:151-156 | the join over the periods of either side has no period twice, covers exactly the periods of both sides, and gives each period its two sums and their difference |
| Summary.SummaryByMonth | financial_tool/src/summary.py:98-158 | fails on a missing `date`, `amount` or `type` (in that order), then on a non-datetime date column; otherwise the periods are distinct and are exactly those of the INCOME and EXPENSE rows, and each line's income, expense and net are that period's sums and their difference |
| Summary.OneSidedPeriod | financial_tool/src/summary.py:151-153 | a period with no EXPENSE rows has expense 0 and net equal to income; one with no INCOME rows has income 0 |
| Summary.PeriodTotalsMatchSummary | financial_tool/src/summary.py:137-156 | the income column adds up to the INCOME total and the expense column to the EXPENSE total |
| Aggregate.Total | financial_tool/src/summary.py:91 | a sum of amounts that are all non-negative is non-negative, and one of amounts that are all non-positive is non-positive |
| Aggregate.SumOfOneKey | financial_tool/src/summary.py:89-91 | the sum for `k` over buckets all keyed `k` is their total |
| Aggregate.SumOfAppend | financial_tool/src/summary.py:89-91 | the sum for a key over a concatenation is the sum of the parts' sums |
| Aggregate.Keys | financial_tool/src/summary.py:90 | the group keys are distinct and are exactly the keys present |
| Aggregate.Group | financial_tool/src/summary.py:89-91 | one bucket per distinct key, each holding the sum of that key's amounts |
| Aggregate.GroupPreservesTotal | financial_tool/src/summary.py:89-91 | grouping keeps the grand total |
| Aggregate.SumOfAbsent | financial_tool/src/summary.py:153 | a key with no entries sums to 0 |
| Aggregate.Lookup | financial_tool/src/summary.py:151-153 | a key absent from the buckets looks up as 0 (the `fillna(0.0)`), and over distinct keys a lookup gives the key's sum |
| Aggregate.LookupGroup | financial_tool/src/summary.py:151-153 | looking a key up in the groups gives its sum, or 0 when it has no entries |
| Aggregate.TotalPermutation | financial_tool/src/summary.py:93 | reordering buckets keeps their total |
| Aggregate.KeySetOfPermutation | financial_tool/src/summary.py:93 | reordering buckets keeps their keys |
| Aggregate.InsertDescending | financial_tool/src/summary.py:93 | inserting into a non-increasing sequence keeps it non-increasing and adds exactly that bucket |
| Aggregate.SortDescending | financial_tool/src/summary.py:93 | the sorted buckets are a permutation of the input in non-increasing order of amount |
| Aggregate.SortKeepsKeysDistinct | financial_tool/src/summary.py:93 | sorting groups keeps their keys distinct |
| Samples.SampleIncomeExpense | financial_tool/tests/tests_summary.py:26-37 | the sample frame totals INCOME 3000, EXPENSE −150, NET 3150 |
| Samples.SampleCategories | financial_tool/tests/tests_summary.py:40-46 | the sample categories are Salary, Groceries and Utilities, and Salary totals 3000 |
| Samples.SampleMonths | financial_tool/tests/tests_summary.py:49-55 | the sample's monthly periods are 2024-01 and 2024-02 |
| Samples.SampleCleaning | financial_tool/tests/tests_cleaning.py:9-29 | on the test's rows (types "credit", "debit", "INCOME"), the second row is dropped; the first and third are kept in order, with dates 2024-01-01 and 2024-01-03, amounts 100 and 200, categories Salary and Bonus, and both types INCOME |
| Samples.SampleMissingDate | financial_tool/tests/tests_cleaning.py:32-35 | a frame with only `amount` fails with a `KeyError` naming `date` |

## Left out

- `financial_tool/src/io_utils.py` (reading the CSV file, existence and emptiness checks) and `financial_tool/src/viz.py` (matplotlib figures) are not part of this model: they are I/O and rendering.
- The date and number formats `pd.to_datetime` and `pd.to_numeric` accept are not modelled. `Cleaning.Parsers` is a parameter, and the samples require only that "invalid" and "abc" are rejected.
- Floating point is not modelled. Amounts are exact integers (for example cents), so `fillna(0.0)` and float sums become integer 0 and integer sums, and NaN propagation is not modelled.
- Strings.Upper: upper-cases ASCII letters only. Python's `str.upper` also maps other Unicode letters, and some of them to several characters.
- Cleaning.CellText: `astype(str)` is modelled for text, null (as "nan"), integers and dates (as "YYYY-MM-DD"). The text pandas prints for a `None` object ("None"), for floats and for timestamps with a time part is not modelled.
- Summary.AmountOf: a non-numeric `amount` cell counts as 0 in the summarizer. Summing text amounts (string concatenation or a `TypeError` in pandas) is not modelled.
- Summary.DatesParsed: stands in for pandas' dtype test with a per-cell test. An all-null float column, or an object column holding only dates, makes `.dt` raise in pandas, but satisfies `DatesParsed`, so the model returns a result.
- Summary.SummaryByMonth: whether the `.dt` accessor applies is decided per cell (any raw text or bare number in `date` gives `NotDatetime`). pandas decides it by the column's dtype, so, for example, an all-null object column is not distinguished.
- Summary.SummaryByMonth: states the set of periods, not their row order, which depends on how `pd.concat` aligns the two indexes.
- Summary.SummaryByCategory: states non-increasing totals, not the order of equal totals, because `sort_values` is not stable by default.
- Summary.FilterByType: states the kept rows with their multiplicities, not their order. Only the group totals depend on the filter.
- Table.YearNumber: years are limited to 0..9999, the range whose labels have four digits.
- Cleaning.EnsureRequiredColumns: the `KeyError` message text is not modelled beyond the list of missing columns. A one-shot generator passed as `required_columns` (consumed by `_ensure_required_columns`, then empty for `dropna`) is not modelled, because the required columns are a sequence.
- Cleaning.CleanTransactions: `reset_index(drop=True)` is implicit, because a row's index is its position in the sequence. The `df.copy()` is implicit too, because frames are values that are never modified.
- dtype enforcement (`is_datetime64_any_dtype`, `is_numeric_dtype`) is modelled only through the cell kinds: `Cleaning.CleanedDefaultsAreParsed` states that every cleaned `date` is a date and every `amount` a number.

=== FILE: aggregate.dfy ===
/** Group-and-sum over keyed amounts: the `groupby(...)["amount"].sum()`,
    outer-join lookup and `sort_values(ascending=False)` steps of the
    summarizer, independent of what the key is. */
module Aggregate {

  /** A key with an amount: either one input row's group key and amount, or
      one output group's key and summed amount. */
  datatype Bucket<K> = Bucket(key: K, amount: int)

  /** The sum of all amounts: never negative when no amount is, and never
      positive when no amount is. */
  function Total<K>(s: seq<Bucket<K>>): (t: int)
    ensures (forall b :: b in s ==> b.amount >= 0) ==> t >= 0
    ensures (forall b :: b in s ==> b.amount <= 0) ==> t <= 0
  {
    assert s != [] ==> forall b :: b in s[1..] ==> b in s;
    if s == [] then 0 else s[0].amount + Total(s[1..])
  }

  /** The sum of the amounts whose key is `k` (lemmas SumOfOneKey,
      SumOfAbsent and SumOfAppend say what it adds up). */
  function SumOf<K(==)>(s: seq<Bucket<K>>, k: K): int {
    if s == [] then 0 else (if s[0].key == k then s[0].amount else 0) + SumOf(s[1..], k)
  }

  function KeySet<K>(s: seq<Bucket<K>>): set<K> {
    set b | b in s :: b.key
  }

  predicate Distinct<K(==)>(ks: seq<K>) {
    forall i, j :: 0 <= i < j < |ks| ==> ks[i] != ks[j]
  }

  predicate DistinctKeys<K(==)>(s: seq<Bucket<K>>) {
    forall i, j :: 0 <= i < j < |s| ==> s[i].key != s[j].key
  }

  lemma Singleton<K>(b: Bucket<K>, k: K)
    ensures Total([b]) == b.amount
    ensures SumOf([b], k) == if b.key == k then b.amount else 0
  {
    assert [b][1..] == [];
  }

  lemma {:induction false} TotalAppend<K>(a: seq<Bucket<K>>, b: seq<Bucket<K>>)
    ensures Total(a + b) == Total(a) + Total(b)
  {
    if a == [] {
      assert a + b == b;
    } else {
      assert (a + b)[1..] == a[1..] + b;
      TotalAppend(a[1..], b);
    }
  }

  lemma {:induction false} SumOfAppend<K>(a: seq<Bucket<K>>, b: seq<Bucket<K>>, k: K)
    ensures SumOf(a + b, k) == SumOf(a, k) + SumOf(b, k)
  {
    if a == [] {
      assert a + b == b;
    } else {
      assert (a + b)[1..] == a[1..] + b;
      SumOfAppend(a[1..], b, k);
    }
  }

  /** A key no entry carries sums to 0. */
  lemma {:induction false} SumOfAbsent<K>(s: seq<Bucket<K>>, k: K)
    requires k !in KeySet(s)
    ensures SumOf(s, k) == 0
  {
    if s != [] {
      assert s[0] in s;
      assert KeySet(s[1..]) <= KeySet(s) by {
        forall x | x in KeySet(s[1..]) ensures x in KeySet(s) {
          var b :| b in s[1..] && b.key == x;
          assert b in s;
        }
      }
      SumOfAbsent(s[1..], k);
    }
  }

  /** When every key is `k`, the sum for `k` is the sum of everything. */
  lemma {:induction false} SumOfOneKey<K>(s: seq<Bucket<K>>, k: K)
    requires KeySet(s) <= {k}
    ensures SumOf(s, k) == Total(s)
  {
    if s != [] {
      assert s[0] in s;
      assert KeySet(s[1..]) <= KeySet(s) by {
        forall x | x in KeySet(s[1..]) ensures x in KeySet(s) {
          var b :| b in s[1..] && b.key == x;
          assert b in s;
        }
      }
      SumOfOneKey(s[1..], k);
      assert s[0].key in KeySet(s);
    }
  }

  lemma KeySetAppend<K>(a: seq<Bucket<K>>, b: seq<Bucket<K>>)
    ensures KeySet(a + b) == KeySet(a) + KeySet(b)
  {
    forall x | x in KeySet(a + b) ensures x in KeySet(a) + KeySet(b) {
      var c :| c in a + b && c.key == x;
      if c in a { assert x in KeySet(a); } else { assert c in b; assert x in KeySet(b); }
    }
    forall x | x in KeySet(a) + KeySet(b) ensures x in KeySet(a + b) {
      if x in KeySet(a) {
        var c :| c in a && c.key == x;
        assert c in a + b;
      } else {
        var c :| c in b && c.key == x;
        assert c in a + b;
      }
    }
  }

  /** The distinct keys of `s`, in order of first appearance (the group keys). */
  function Keys<K(==,!new)>(s: seq<Bucket<K>>): (ks: seq<K>)
    ensures Distinct(ks)
    ensures forall k :: k in ks <==> k in KeySet(s)
  {
    if s == [] then []
    else
      var init := s[..|s| - 1];
      var last := s[|s| - 1];
      KeySetAppend(init, [last]);
      assert s == init + [last];
      assert KeySet([last]) == {last.key};
      var ks := Keys(init);
      if last.key in ks then ks else ks + [last.key]
  }

  /** One bucket per key of `ks`, holding that key's sum over `s`. */
  function Sums<K(==)>(s: seq<Bucket<K>>, ks: seq<K>): (r: seq<Bucket<K>>)
    ensures |r| == |ks|
    ensures forall i :: 0 <= i < |r| ==> r[i].key == ks[i] && r[i].amount == SumOf(s, ks[i])
  {
    if ks == [] then [] else [Bucket(ks[0], SumOf(s, ks[0]))] + Sums(s, ks[1..])
  }

  /** `groupby(key)[amount].sum()`: one bucket per distinct key of `s`, and
      each bucket holds the sum of that key's amounts. */
  function Group<K(==,!new)>(s: seq<Bucket<K>>): (r: seq<Bucket<K>>)
    ensures DistinctKeys(r)
    ensures KeySet(r) == KeySet(s)
    ensures forall b :: b in r ==> b.amount == SumOf(s, b.key)
  {
    var ks := Keys(s);
    var r := Sums(s, ks);
    assert forall k :: k in KeySet(r) <==> k in ks by {
      forall k | k in ks ensures k in KeySet(r) {
        var i :| 0 <= i < |ks| && ks[i] == k;
        assert r[i] in r;
      }
    }
    r
  }

  lemma {:induction false} SumsSnoc<K>(s: seq<Bucket<K>>, p: Bucket<K>, ks: seq<K>)
    requires Distinct(ks)
    ensures Total(Sums(s + [p], ks)) == Total(Sums(s, ks)) + (if p.key in ks then p.amount else 0)
  {
    if ks != [] {
      SumOfAppend(s, [p], ks[0]);
      assert SumOf([p], ks[0]) == if p.key == ks[0] then p.amount else 0;
      assert Distinct(ks[1..]) by {
        forall i, j | 0 <= i < j < |ks[1..]| ensures ks[1..][i] != ks[1..][j] {
          assert ks[1..][i] == ks[i + 1] && ks[1..][j] == ks[j + 1];
        }
      }
      SumsSnoc(s, p, ks[1..]);
      assert p.key in ks <==> p.key == ks[0] || p.key in ks[1..];
      assert p.key == ks[0] ==> p.key !in ks[1..];
    }
  }

  lemma {:induction false} SumsCover<K>(s: seq<Bucket<K>>, ks: seq<K>)
    requires Distinct(ks)
    requires forall k :: k in KeySet(s) ==> k in ks
    ensures Total(Sums(s, ks)) == Total(s)
  {
    if s == [] {
      SumsOfEmpty(ks);
    } else {
      var init, last := s[..|s| - 1], s[|s| - 1];
      assert s == init + [last];
      KeySetAppend(init, [last]);
      assert last in s;
      SumsCover(init, ks);
      SumsSnoc(init, last, ks);
      TotalAppend(init, [last]);
    }
  }

  lemma {:induction false} SumsOfEmpty<K>(ks: seq<K>)
    ensures Total(Sums([], ks)) == 0
  {
    if ks != [] {
      SumsOfEmpty(ks[1..]);
    }
  }

  /** The group totals add up to the total of the input. */
  lemma GroupPreservesTotal<K(!new)>(s: seq<Bucket<K>>)
    ensures Total(Group(s)) == Total(s)
  {
    SumsCover(s, Keys(s));
  }

  /** The amount of the first bucket with key `k`, or 0 when there is none
      (an outer join followed by `fillna(0.0)`). */
  function Lookup<K(==)>(s: seq<Bucket<K>>, k: K): (v: int)
    ensures k !in KeySet(s) ==> v == 0
    ensures DistinctKeys(s) ==> v == SumOf(s, k)
  {
    assert s != [] ==> forall b :: b in s[1..] ==> b in s;
    assert s != [] ==> s[0] in s;
    assert s != [] && DistinctKeys(s) ==> DistinctKeys(s[1..]) && s[0].key !in KeySet(s[1..]) by {
      if s != [] && DistinctKeys(s) {
        forall i, j | 0 <= i < j < |s[1..]| ensures s[1..][i].key != s[1..][j].key {
          assert s[1..][i] == s[i + 1] && s[1..][j] == s[j + 1];
        }
      }
    }
    assert s != [] && DistinctKeys(s) && s[0].key == k ==> SumOf(s[1..], k) == 0 by {
      if s != [] && DistinctKeys(s) && s[0].key == k {
        SumOfAbsent(s[1..], k);
      }
    }
    if s == [] then 0 else if s[0].key == k then s[0].amount else Lookup(s[1..], k)
  }

  lemma {:induction false} LookupSums<K>(s: seq<Bucket<K>>, ks: seq<K>, k: K)
    ensures Lookup(Sums(s, ks), k) == if k in ks then SumOf(s, k) else 0
  {
    if ks != [] {
      LookupSums(s, ks[1..], k);
    }
  }

  /** Looking a key up in the groups gives that key's sum, and 0 for a key
      that has no entries. */
  lemma LookupGroup<K(!new)>(s: seq<Bucket<K>>, k: K)
    ensures Lookup(Group(s), k) == SumOf(s, k)
  {
    LookupSums(s, Keys(s), k);
    if k !in Keys(s) {
      SumOfAbsent(s, k);
    }
  }

  lemma LookupGroupAll<K(!new)>(s: seq<Bucket<K>>)
    ensures forall k :: Lookup(Group(s), k) == SumOf(s, k)
  {
    forall k {
      LookupGroup(s, k);
    }
  }

  /** Reordering buckets does not change their total. */
  lemma {:induction false} TotalPermutation<K>(a: seq<Bucket<K>>, b: seq<Bucket<K>>)
    requires multiset(a) == multiset(b)
    ensures Total(a) == Total(b)
  {
    if a == [] {
      assert |b| == |multiset(b)| == 0;
    } else {
      var i := IndexOf(b, a[0]);
      var rest := b[..i] + b[i + 1..];
      MultisetRemove(b, i);
      MultisetTail(a);
      assert multiset(a[1..]) == multiset(rest);
      TotalPermutation(a[1..], rest);
      TotalRemove(b, i);
    }
  }

  /** A position of `x` in `s`. */
  lemma IndexOf<T>(s: seq<T>, x: T) returns (i: nat)
    requires x in multiset(s)
    ensures i < |s| && s[i] == x
  {
    assert x in s;
    i :| 0 <= i < |s| && s[i] == x;
  }

  lemma MultisetTail<T>(s: seq<T>)
    requires s != []
    ensures multiset(s[1..]) == multiset(s) - multiset{s[0]}
  {
    assert s == [s[0]] + s[1..];
  }

  lemma MultisetRemove<T>(s: seq<T>, i: nat)
    requires i < |s|
    ensures multiset(s[..i] + s[i + 1..]) == multiset(s) - multiset{s[i]}
  {
    assert s == s[..i] + [s[i]] + s[i + 1..];
  }

  lemma TotalRemove<K>(s: seq<Bucket<K>>, i: nat)
    requires i < |s|
    ensures Total(s) == s[i].amount + Total(s[..i] + s[i + 1..])
  {
    var a, rest := s[..i], s[i..];
    assert s == a + rest;
    assert rest[0] == s[i] && rest[1..] == s[i + 1..];
    TotalAppend(a, rest);
    TotalAppend(a, s[i + 1..]);
  }

  /** Amounts never increase from one bucket to the next. */
  predicate NonIncreasing<K>(s: seq<Bucket<K>>) {
    forall i, j :: 0 <= i < j < |s| ==> s[i].amount >= s[j].amount
  }

  lemma KeySetOfPermutation<K>(a: seq<Bucket<K>>, b: seq<Bucket<K>>)
    requires multiset(a) == multiset(b)
    ensures KeySet(a) == KeySet(b)
  {
    forall x | x in a ensures x in b { assert x in multiset(a); }
    forall x | x in b ensures x in a { assert x in multiset(b); }
  }

  /** A bucket followed by buckets with distinct keys has distinct keys
      exactly when its own key is new. */
  lemma ConsDistinctKeys<K>(x: Bucket<K>, t: seq<Bucket<K>>)
    ensures DistinctKeys([x] + t) <==> DistinctKeys(t) && x.key !in KeySet(t)
  {
    var s := [x] + t;
    if DistinctKeys(s) {
      forall i, j | 0 <= i < j < |t| ensures t[i].key != t[j].key {
        assert t[i] == s[i + 1] && t[j] == s[j + 1];
      }
      forall c | c in t ensures c.key != x.key {
        var k :| 0 <= k < |t| && t[k] == c;
        assert s[0] == x && s[k + 1] == c;
        assert s[0].key != s[k + 1].key;
      }
    }
    if DistinctKeys(t) && x.key !in KeySet(t) {
      forall i, j | 0 <= i < j < |s| ensures s[i].key != s[j].key {
        assert s[j] == t[j - 1] && s[j] in t;
        if i > 0 { assert s[i] == t[i - 1]; }
      }
    }
  }

  /** Inserts `b` into a non-increasing sequence, keeping it non-increasing. */
  function InsertDescending<K>(b: Bucket<K>, s: seq<Bucket<K>>): (r: seq<Bucket<K>>)
    requires NonIncreasing(s)
    ensures NonIncreasing(r)
    ensures multiset(r) == multiset(s) + multiset{b}
  {
    if s == [] || b.amount >= s[0].amount then
      FirstBounds(b, s);
      ConsNonIncreasing(b, s);
      [b] + s
    else
      var t := InsertDescending(b, s[1..]);
      HeadBounds(b, s, t);
      ConsNonIncreasing(s[0], t);
      assert s == [s[0]] + s[1..];
      [s[0]] + t
  }

  /** The head of a non-increasing sequence bounds its tail. */
  lemma FirstBounds<K>(b: Bucket<K>, s: seq<Bucket<K>>)
    requires NonIncreasing(s)
    requires s == [] || b.amount >= s[0].amount
    ensures forall x :: x in s ==> b.amount >= x.amount
  {
  }

  /** The head of `s` bounds every element of a permutation of its tail plus
      a smaller `b`. */
  lemma HeadBounds<K>(b: Bucket<K>, s: seq<Bucket<K>>, t: seq<Bucket<K>>)
    requires NonIncreasing(s) && s != [] && b.amount < s[0].amount
    requires multiset(t) == multiset(s[1..]) + multiset{b}
    ensures forall x :: x in t ==> s[0].amount >= x.amount
  {
    forall x | x in t ensures s[0].amount >= x.amount {
      assert x in multiset(t);
      if x != b {
        assert x in multiset(s[1..]);
        var k :| 0 <= k < |s[1..]| && s[1..][k] == x;
        assert s[k + 1] == x;
      }
    }
  }

  lemma ConsNonIncreasing<K>(x: Bucket<K>, t: seq<Bucket<K>>)
    requires NonIncreasing(t)
    requires forall y :: y in t ==> x.amount >= y.amount
    ensures NonIncreasing([x] + t)
  {
    var s := [x] + t;
    forall i, j | 0 <= i < j < |s| ensures s[i].amount >= s[j].amount {
      assert s[j] == t[j - 1] && s[j] in t;
      if i > 0 { assert s[i] == t[i - 1]; }
    }
  }

  lemma {:induction false} InsertKeepsKeysDistinct<K>(b: Bucket<K>, s: seq<Bucket<K>>)
    requires NonIncreasing(s) && DistinctKeys(s) && b.key !in KeySet(s)
    ensures DistinctKeys(InsertDescending(b, s))
  {
    if s == [] || b.amount >= s[0].amount {
      ConsDistinctKeys(b, s);
    } else {
      var t := InsertDescending(b, s[1..]);
      assert s == [s[0]] + s[1..];
      ConsDistinctKeys(s[0], s[1..]);
      KeySetAppend([s[0]], s[1..]);
      InsertKeepsKeysDistinct(b, s[1..]);
      assert multiset(t) == multiset(s[1..] + [b]);
      KeySetOfPermutation(t, s[1..] + [b]);
      KeySetAppend(s[1..], [b]);
      assert KeySet([b]) == {b.key};
      ConsDistinctKeys(s[0], t);
    }
  }

  /** `sort_values(ascending=False)`: a permutation of `s` whose amounts
      never increase. Ties are broken in no promised order. */
  function SortDescending<K>(s: seq<Bucket<K>>): (r: seq<Bucket<K>>)
    ensures NonIncreasing(r)
    ensures multiset(r) == multiset(s)
  {
    if s == [] then []
    else
      assert s == [s[0]] + s[1..];
      InsertDescending(s[0], SortDescending(s[1..]))
  }

  /** Sorting keeps distinct keys distinct. */
  lemma {:induction false} SortKeepsKeysDistinct<K>(s: seq<Bucket<K>>)
    requires DistinctKeys(s)
    ensures DistinctKeys(SortDescending(s))
  {
    if s != [] {
      var t := SortDescending(s[1..]);
      assert s == [s[0]] + s[1..];
      ConsDistinctKeys(s[0], s[1..]);
      SortKeepsKeysDistinct(s[1..]);
      KeySetOfPermutation(t, s[1..]);
      InsertKeepsKeysDistinct(s[0], t);
    }
  }
}

=== FILE: cleaning.dfy ===
/** The transaction cleaner: checks the required columns, parses `date` and
    `amount` into nullable values, normalizes `type`, and drops every row
    with a null in a required column. The input frame is a value, so it is
    never modified. */
module Cleaning {
  import opened Table
  import opened Strings

  /** The default required columns. */
  const RequiredColumns: seq<string> := ["date", "amount"]

  /** The default normalization table for `type` values. */
  const DefaultTypeMap: map<string, string> := map[
    "CREDIT" := "INCOME", "CR" := "INCOME", "INCOME" := "INCOME",
    "DEBIT" := "EXPENSE", "DR" := "EXPENSE", "EXPENSE" := "EXPENSE"]

  /** The required columns absent from `columns`, in the order of `required`. */
  function MissingColumns(columns: set<string>, required: seq<string>): (missing: seq<string>)
    ensures |missing| <= |required|
    ensures forall i :: 0 <= i < |missing| ==> missing[i] in required && missing[i] !in columns
  {
    if required == [] then []
    else (if required[0] in columns then [] else [required[0]]) + MissingColumns(columns, required[1..])
  }

  /** A column is listed as missing exactly when it is required and absent. */
  lemma {:induction false} MissingColumnsMeaning(columns: set<string>, required: seq<string>)
    ensures forall c :: c in MissingColumns(columns, required) <==> c in required && c !in columns
  {
    if required != [] {
      MissingColumnsMeaning(columns, required[1..]);
      assert forall c :: c in required <==> c == required[0] || c in required[1..];
    }
  }

  /** Missing columns are listed in the order the required list gives them:
      the missing columns of a concatenation are those of the first part
      followed by those of the second. */
  lemma {:induction false} MissingColumnsAppend(columns: set<string>, a: seq<string>, b: seq<string>)
    ensures MissingColumns(columns, a + b) == MissingColumns(columns, a) + MissingColumns(columns, b)
  {
    if a == [] {
      assert a + b == b;
    } else {
      assert (a + b)[0] == a[0] && (a + b)[1..] == a[1..] + b;
      var h := if a[0] in columns then [] else [a[0]];
      var x, y := MissingColumns(columns, a[1..]), MissingColumns(columns, b);
      assert MissingColumns(columns, a + b) == h + MissingColumns(columns, a[1..] + b);
      assert MissingColumns(columns, a) == h + x;
      MissingColumnsAppend(columns, a[1..], b);
      assert h + (x + y) == (h + x) + y;
    }
  }

  /** The validation of the required columns: `None` when all are present,
      otherwise one `KeyError` that names every missing column. */
  function EnsureRequiredColumns(columns: set<string>, required: seq<string>): (r: Option<Error>)
    ensures r == None <==> forall c :: c in required ==> c in columns
    ensures r != None ==> r.value.KeyError? && r.value.columns != []
    ensures r != None ==> forall c :: c in r.value.columns <==> c in required && c !in columns
  {
    var missing := MissingColumns(columns, required);
    MissingColumnsMeaning(columns, required);
    assert missing != [] ==> missing[0] in missing;
    if missing != [] then Some(KeyError(missing)) else None
  }

  /** `pd.to_datetime` and `pd.to_numeric` with `errors="coerce"`, as opaque
      partial parsers of one cell: `None` is a value they cannot parse. */
  datatype Parsers = Parsers(date: Cell -> Option<Date>, number: Cell -> Option<int>)

  /** One `date` cell after `pd.to_datetime(..., errors="coerce")`. */
  function ParseDate(p: Parsers, c: Cell): (r: Cell)
    ensures r.When? || r.Missing?
    ensures c.Missing? || c.When? ==> r == c
    ensures c.Text? || c.Number? ==> (r.When? <==> p.date(c).Some?)
    ensures r.When? && !c.When? ==> Some(r.date) == p.date(c)
  {
    match c
    case Missing => Missing
    case When(_) => c
    case _ => (match p.date(c) case Some(d) => When(d) case None => Missing)
  }

  /** One `amount` cell after `pd.to_numeric(..., errors="coerce")`. */
  function ParseAmount(p: Parsers, c: Cell): (r: Cell)
    ensures r.Number? || r.Missing?
    ensures c.Missing? || c.Number? ==> r == c
    ensures c.Text? || c.When? ==> (r.Number? <==> p.number(c).Some?)
    ensures r.Number? && !c.Number? ==> Some(r.n) == p.number(c)
  {
    match c
    case Missing => Missing
    case Number(_) => c
    case _ => (match p.number(c) case Some(n) => Number(n) case None => Missing)
  }

  /** `astype(str)` of one cell: text is kept, a null becomes "nan", a
      number becomes its decimal numeral after a minus sign when negative,
      and a date becomes "YYYY-MM-DD". A number or a date is thus written in
      digits and dashes, with no whitespace and no lower-case letter to
      normalize. */
  function CellText(c: Cell): (r: string)
    ensures c.Text? ==> r == c.s
    ensures c.Missing? ==> r == "nan"
    ensures c.Number? || c.When? ==> r != [] && forall i :: 0 <= i < |r| ==> r[i] == '-' || '0' <= r[i] <= '9'
    ensures c.Number? && c.n >= 0 ==> Numeral(r) && DecimalValue(r) == c.n
    ensures c.Number? && c.n < 0 ==> |r| >= 2 && r[0] == '-' && Numeral(r[1..]) && DecimalValue(r[1..]) == -c.n
    ensures c.When? ==>
      && |r| == 10 && r[4] == '-' && r[7] == '-'
      && IsDecimal(r[..4]) && DecimalValue(r[..4]) == c.date.year
      && IsDecimal(r[5..7]) && DecimalValue(r[5..7]) == c.date.month
      && IsDecimal(r[8..]) && DecimalValue(r[8..]) == c.date.day
  {
    match c
    case Missing => "nan"
    case Text(s) => s
    case Number(n) =>
      NumberTextDigits(n);
      IntString(n)
    case When(d) =>
      var y, m, dd := Pad4(d.year), Pad2(d.month), Pad2(d.day);
      Pad4Value(d.year);
      Pad2Value(d.month);
      Pad2Value(d.day);
      DateTextParts(y, m, dd);
      y + "-" + m + "-" + dd
  }

  /** A number's text is made of digits and a leading minus sign. */
  lemma NumberTextDigits(n: int)
    ensures var r := IntString(n);
      forall i :: 0 <= i < |r| ==> r[i] == '-' || '0' <= r[i] <= '9'
  {
    var r := IntString(n);
    if n < 0 {
      forall i | 1 <= i < |r| ensures '0' <= r[i] <= '9' { assert r[i] == r[1..][i - 1]; }
    }
  }

  /** Where the year, month and day sit in a "YYYY-MM-DD" string. */
  lemma DateTextParts(y: string, m: string, dd: string)
    requires |y| == 4 && |m| == 2 && |dd| == 2 && IsDecimal(y) && IsDecimal(m) && IsDecimal(dd)
    ensures var r := y + "-" + m + "-" + dd;
      && |r| == 10 && r[4] == '-' && r[7] == '-' && r[..4] == y && r[5..7] == m && r[8..] == dd
      && forall i :: 0 <= i < |r| ==> r[i] == '-' || '0' <= r[i] <= '9'
  {
    var r := y + "-" + m + "-" + dd;
    assert r[..4] == y && r[5..7] == m && r[8..] == dd;
    forall i | 0 <= i < |r| ensures r[i] == '-' || '0' <= r[i] <= '9' {
      if i < 4 { assert r[i] == y[i]; }
      else if 5 <= i < 7 { assert r[i] == m[i - 5]; }
      else if 8 <= i { assert r[i] == dd[i - 8]; }
    }
  }

  /** A `type` value after strip, upper-case and mapping: either a value of
      the table, or a stripped upper-case string that is not a key of it. */
  function NormalizeType(typeMap: map<string, string>, raw: string): (r: string)
    ensures r in typeMap.Values || (r !in typeMap && Stripped(r) && NoLower(r))
  {
    var key := Upper(Strip(raw));
    assert Stripped(key);
    if key in typeMap then typeMap[key] else key
  }

  /** Normalization ignores letter case. */
  lemma NormalizeCaseInsensitive(typeMap: map<string, string>, x: string, y: string)
    requires Upper(x) == Upper(y)
    ensures NormalizeType(typeMap, x) == NormalizeType(typeMap, y)
  {
    UpperStripCommute(x);
    UpperStripCommute(y);
  }

  /** Normalization ignores surrounding whitespace. */
  lemma NormalizeIgnoresPadding(typeMap: map<string, string>, pre: string, raw: string, post: string)
    requires AllSpace(pre) && AllSpace(post)
    ensures NormalizeType(typeMap, pre + raw + post) == NormalizeType(typeMap, raw)
  {
    StripIgnoresPadding(pre, raw, post);
  }

  /** A stripped upper-case value that the table maps to itself, or does not
      map at all, normalizes to itself. */
  lemma NormalizeFixedPoint(typeMap: map<string, string>, x: string)
    requires Stripped(x) && NoLower(x)
    requires x in typeMap ==> typeMap[x] == x
    ensures NormalizeType(typeMap, x) == x
  {
    StripStripped(x);
  }

  /** Every value a table produces is left alone by normalizing again. */
  predicate StableTypeMap(typeMap: map<string, string>) {
    forall k :: k in typeMap ==> NormalizeType(typeMap, typeMap[k]) == typeMap[k]
  }

  /** A stripped raw value normalizes through its upper case. */
  lemma NormalizeStripped(typeMap: map<string, string>, raw: string)
    requires Stripped(raw)
    ensures NormalizeType(typeMap, raw) == if Upper(raw) in typeMap then typeMap[Upper(raw)] else Upper(raw)
  {
    StripStripped(raw);
  }

  /** A padded value whose upper case is a key of the table normalizes to
      that key's value. */
  lemma NormalizeKey(typeMap: map<string, string>, pre: string, raw: string, post: string)
    requires AllSpace(pre) && AllSpace(post) && Stripped(raw)
    requires Upper(raw) in typeMap
    ensures NormalizeType(typeMap, pre + raw + post) == typeMap[Upper(raw)]
  {
    NormalizeIgnoresPadding(typeMap, pre, raw, post);
    StripStripped(raw);
  }

  /** A padded value whose upper case is not a key of the table normalizes
      to that upper case. */
  lemma NormalizeNotKey(typeMap: map<string, string>, pre: string, raw: string, post: string)
    requires AllSpace(pre) && AllSpace(post) && Stripped(raw)
    requires Upper(raw) !in typeMap
    ensures NormalizeType(typeMap, pre + raw + post) == Upper(raw)
  {
    NormalizeIgnoresPadding(typeMap, pre, raw, post);
    StripStripped(raw);
  }

  /** The default table turns every credit-like value into INCOME, whatever
      its case and its padding. */
  lemma DefaultTypeMapIncome(pre: string, raw: string, post: string)
    requires AllSpace(pre) && AllSpace(post)
    requires Upper(raw) in {"CREDIT", "CR", "INCOME"}
    ensures NormalizeType(DefaultTypeMap, pre + raw + post) == "INCOME"
  {
    DefaultIncomeKeys(Upper(raw));
    UpperOfStripped(raw);
    NormalizeKey(DefaultTypeMap, pre, raw, post);
  }

  /** The default table turns every debit-like value into EXPENSE, whatever
      its case and its padding. */
  lemma DefaultTypeMapExpense(pre: string, raw: string, post: string)
    requires AllSpace(pre) && AllSpace(post)
    requires Upper(raw) in {"DEBIT", "DR", "EXPENSE"}
    ensures NormalizeType(DefaultTypeMap, pre + raw + post) == "EXPENSE"
  {
    DefaultExpenseKeys(Upper(raw));
    UpperOfStripped(raw);
    NormalizeKey(DefaultTypeMap, pre, raw, post);
  }

  lemma DefaultIncomeKeys(k: string)
    requires k in {"CREDIT", "CR", "INCOME"}
    ensures k in DefaultTypeMap && DefaultTypeMap[k] == "INCOME" && Stripped(k)
  {
  }

  lemma DefaultExpenseKeys(k: string)
    requires k in {"DEBIT", "DR", "EXPENSE"}
    ensures k in DefaultTypeMap && DefaultTypeMap[k] == "EXPENSE" && Stripped(k)
  {
  }

  /** A string whose upper case has no whitespace at either end has none
      either. */
  lemma UpperOfStripped(raw: string)
    requires Stripped(Upper(raw))
    ensures Stripped(raw)
  {
    if raw != [] {
      assert IsSpace(Upper(raw)[0]) == IsSpace(raw[0]);
      assert IsSpace(Upper(raw)[|raw| - 1]) == IsSpace(raw[|raw| - 1]);
    }
  }

  /** The test's "credit" becomes INCOME under the default table. */
  lemma CreditIsIncome()
    ensures NormalizeType(DefaultTypeMap, "credit") == "INCOME"
  {
    var u := Upper("credit");
    assert u[0] == 'C' && u[1] == 'R' && u[2] == 'E' && u[3] == 'D' && u[4] == 'I' && u[5] == 'T';
    assert u == "CREDIT";
    assert "" + "credit" + "" == "credit";
    DefaultTypeMapIncome("", "credit", "");
  }

  /** The test's "debit" becomes EXPENSE under the default table. */
  lemma DebitIsExpense()
    ensures NormalizeType(DefaultTypeMap, "debit") == "EXPENSE"
  {
    var u := Upper("debit");
    assert u[0] == 'D' && u[1] == 'E' && u[2] == 'B' && u[3] == 'I' && u[4] == 'T';
    assert u == "DEBIT";
    assert "" + "debit" + "" == "debit";
    DefaultTypeMapExpense("", "debit", "");
  }

  /** The test's "INCOME" stays INCOME under the default table. */
  lemma IncomeStaysIncome()
    ensures NormalizeType(DefaultTypeMap, "INCOME") == "INCOME"
  {
    DefaultValues();
    NormalizeFixedPoint(DefaultTypeMap, "INCOME");
  }

  /** Any other value passes the default table through, stripped and
      upper-cased. */
  lemma DefaultTypeMapPassesThrough(pre: string, raw: string, post: string)
    requires AllSpace(pre) && AllSpace(post) && Stripped(raw)
    requires Upper(raw) !in {"CREDIT", "CR", "INCOME", "DEBIT", "DR", "EXPENSE"}
    ensures NormalizeType(DefaultTypeMap, pre + raw + post) == Upper(raw)
  {
    DefaultKeySet();
    NormalizeNotKey(DefaultTypeMap, pre, raw, post);
  }

  lemma DefaultKeySet()
    ensures DefaultTypeMap.Keys == {"CREDIT", "CR", "INCOME", "DEBIT", "DR", "EXPENSE"}
  {
  }

  /** The default table's values, INCOME and EXPENSE, normalize to
      themselves. */
  lemma DefaultTypeMapStable()
    ensures StableTypeMap(DefaultTypeMap)
  {
    DefaultValues();
    StableByFixedValues(DefaultTypeMap);
  }

  lemma DefaultValues()
    ensures forall k :: k in DefaultTypeMap ==> DefaultTypeMap[k] in {"INCOME", "EXPENSE"}
    ensures forall v :: v in {"INCOME", "EXPENSE"} ==> v in DefaultTypeMap && DefaultTypeMap[v] == v && Stripped(v) && NoLower(v)
  {
  }

  /** A table whose values are stripped, upper-case and mapped to themselves
      (or not mapped at all) is stable. */
  lemma StableByFixedValues(typeMap: map<string, string>)
    requires forall k :: k in typeMap ==>
      Stripped(typeMap[k]) && NoLower(typeMap[k]) && (typeMap[k] in typeMap ==> typeMap[typeMap[k]] == typeMap[k])
    ensures StableTypeMap(typeMap)
  {
    forall k | k in typeMap ensures NormalizeType(typeMap, typeMap[k]) == typeMap[k] {
      NormalizeFixedPoint(typeMap, typeMap[k]);
    }
  }

  /** `type_map or DEFAULT_TYPE_MAP`: no table and an empty table both mean
      the default one. */
  function EffectiveTypeMap(typeMap: Option<map<string, string>>): (r: map<string, string>)
    ensures r != map[]
    ensures typeMap.Some? && typeMap.value != map[] ==> r == typeMap.value
    ensures typeMap.None? || typeMap.value == map[] ==> r == DefaultTypeMap
  {
    assert "CREDIT" in DefaultTypeMap;
    if typeMap.None? || typeMap.value == map[] then DefaultTypeMap else typeMap.value
  }

  /** One row after parsing and (when the frame has a `type` column)
      normalizing. */
  function CleanRow(p: Parsers, typeMap: map<string, string>, hasType: bool, r: Row): (c: Row)
    ensures Get(c, "date").When? || Get(c, "date").Missing?
    ensures Get(c, "amount").Number? || Get(c, "amount").Missing?
    ensures hasType ==> Get(c, "type").Text?
  {
    var d, a := ParseDate(p, Get(r, "date")), ParseAmount(p, Get(r, "amount"));
    var t := Text(NormalizeType(typeMap, CellText(Get(r, "type"))));
    UpdatedCells(r, d, a, t);
    var parsed := r["date" := d]["amount" := a];
    if hasType then parsed["type" := t] else parsed
  }

  lemma UpdatedCells(r: Row, d: Cell, a: Cell, t: Cell)
    ensures var m := r["date" := d]["amount" := a];
      && Get(m, "date") == d && Get(m, "amount") == a
      && Get(m["type" := t], "date") == d && Get(m["type" := t], "amount") == a && Get(m["type" := t], "type") == t
  {
    assert "date"[0] != "type"[0];
  }

  /** Cleaning a row touches only `date`, `amount` and `type`, and adds
      `type` only when the frame has that column. */
  lemma CleanRowOtherColumns(p: Parsers, typeMap: map<string, string>, hasType: bool, r: Row)
    ensures var out := CleanRow(p, typeMap, hasType, r);
      && (forall c :: c != "date" && c != "amount" && c != "type" ==> Get(out, c) == Get(r, c))
      && out.Keys == r.Keys + {"date", "amount"} + (if hasType then {"type"} else {})
      && (!hasType ==> Get(out, "type") == Get(r, "type"))
  {
    var d, a := ParseDate(p, Get(r, "date")), ParseAmount(p, Get(r, "amount"));
    var t := Text(NormalizeType(typeMap, CellText(Get(r, "type"))));
    UpdatedOtherCells(r, d, a, t, hasType);
  }

  lemma UpdatedOtherCells(r: Row, d: Cell, a: Cell, t: Cell, hasType: bool)
    ensures var m := r["date" := d]["amount" := a];
      var out := if hasType then m["type" := t] else m;
      && (forall c :: c != "date" && c != "amount" && c != "type" ==> Get(out, c) == Get(r, c))
      && out.Keys == r.Keys + {"date", "amount"} + (if hasType then {"type"} else {})
      && (!hasType ==> Get(out, "type") == Get(r, "type"))
  {
    assert "date"[0] != "type"[0] && "amount"[0] != "type"[0];
  }

  /** The parsed and normalized cells of a cleaned row. */
  lemma CleanRowCells(p: Parsers, typeMap: map<string, string>, hasType: bool, r: Row)
    ensures var c := CleanRow(p, typeMap, hasType, r);
      && Get(c, "date") == ParseDate(p, Get(r, "date"))
      && Get(c, "amount") == ParseAmount(p, Get(r, "amount"))
      && (hasType ==> Get(c, "type") == Text(NormalizeType(typeMap, CellText(Get(r, "type")))))
  {
    var d, a := ParseDate(p, Get(r, "date")), ParseAmount(p, Get(r, "amount"));
    var t := Text(NormalizeType(typeMap, CellText(Get(r, "type"))));
    UpdatedCells(r, d, a, t);
  }

  /** Every row cleaned, in order. */
  function CleanRows(p: Parsers, typeMap: map<string, string>, hasType: bool, rows: seq<Row>): (r: seq<Row>)
    ensures |r| == |rows|
    ensures forall i :: 0 <= i < |rows| ==> r[i] == CleanRow(p, typeMap, hasType, rows[i])
  {
    seq(|rows|, i requires 0 <= i < |rows| => CleanRow(p, typeMap, hasType, rows[i]))
  }

  /** No required column of `r` is null; a column the row lacks counts as
      null, so a complete row has every required column. */
  predicate Complete(r: Row, required: seq<string>)
    ensures Complete(r, required) ==> forall i :: 0 <= i < |required| ==> required[i] in r
  {
    assert forall i :: 0 <= i < |required| ==> required[i] in required;
    forall c :: c in required ==> Get(r, c) != Missing
  }

  /** `dropna(subset=required)`: keeps the complete rows, in order. */
  function DropIncomplete(rows: seq<Row>, required: seq<string>): (r: seq<Row>)
    ensures |r| <= |rows|
    ensures forall i :: 0 <= i < |r| ==> Complete(r[i], required)
  {
    if rows == [] then []
    else
      var kept := DropIncomplete(rows[..|rows| - 1], required);
      if Complete(rows[|rows| - 1], required) then kept + [rows[|rows| - 1]] else kept
  }

  /** The positions of the rows `DropIncomplete` keeps, in increasing order
      (lemma SurvivorsExactlyComplete says which they are). */
  ghost function Survivors(rows: seq<Row>, required: seq<string>): (idx: seq<nat>)
    ensures |idx| == |DropIncomplete(rows, required)|
    ensures forall k :: 0 <= k < |idx| ==> idx[k] < |rows| && DropIncomplete(rows, required)[k] == rows[idx[k]]
    ensures forall k, l :: 0 <= k < l < |idx| ==> idx[k] < idx[l]
  {
    if rows == [] then []
    else
      var last := |rows| - 1;
      var init := rows[..last];
      var pre := Survivors(init, required);
      assert forall i :: 0 <= i < last ==> init[i] == rows[i];
      if Complete(rows[last], required) then pre + [last] else pre
  }

  /** `DropIncomplete` keeps a row exactly when it is complete. */
  lemma {:induction false} SurvivorsExactlyComplete(rows: seq<Row>, required: seq<string>)
    ensures var idx := Survivors(rows, required);
      forall i :: 0 <= i < |rows| ==> (i in idx <==> Complete(rows[i], required))
  {
    if rows != [] {
      var last := |rows| - 1;
      var init := rows[..last];
      SurvivorsExactlyComplete(init, required);
      var pre := Survivors(init, required);
      var idx := Survivors(rows, required);
      assert forall i :: 0 <= i < last ==> init[i] == rows[i];
      assert last !in pre;
      forall i | 0 <= i < |rows| ensures i in idx <==> Complete(rows[i], required) {
        if i < last {
          assert i in idx <==> i in pre;
        }
      }
    }
  }

  /** `clean_transactions`. Fails with one `KeyError` naming every missing
      required column; fails with a `KeyError` for `date` or `amount` when
      that column is absent although not required; otherwise keeps the
      columns, and every row it returns is complete. */
  function CleanTransactions(f: Frame, p: Parsers, typeMap: Option<map<string, string>>, required: seq<string>): (r: Result<Frame>)
    ensures r.Err? <==> MissingColumns(f.columns, required) != [] || "date" !in f.columns || "amount" !in f.columns
    ensures MissingColumns(f.columns, required) != [] ==> r == Err(KeyError(MissingColumns(f.columns, required)))
    ensures r.Err? ==> r.error.KeyError? && r.error.columns != []
    ensures r.Ok? ==> r.value.columns == f.columns && |r.value.rows| <= |f.rows|
    ensures r.Ok? ==> forall i :: 0 <= i < |r.value.rows| ==> Complete(r.value.rows[i], required)
  {
    match EnsureRequiredColumns(f.columns, required)
    case Some(e) => Err(e)
    case None =>
      if "date" !in f.columns then Err(KeyError(["date"]))
      else if "amount" !in f.columns then Err(KeyError(["amount"]))
      else
        var parsed := CleanRows(p, EffectiveTypeMap(typeMap), "type" in f.columns, f.rows);
        Ok(Frame(f.columns, DropIncomplete(parsed, required)))
  }

  /** With the default required columns, no cleaned row has a null `date`
      or `amount`: the date is a parsed date and the amount a number. */
  lemma CleanedDefaultsAreParsed(f: Frame, p: Parsers, typeMap: Option<map<string, string>>)
    requires CleanTransactions(f, p, typeMap, RequiredColumns).Ok?
    ensures var out := CleanTransactions(f, p, typeMap, RequiredColumns).value.rows;
      forall i :: 0 <= i < |out| ==> Get(out[i], "date").When? && Get(out[i], "amount").Number?
  {
    assert "date" in RequiredColumns && "amount" in RequiredColumns;
    CleanedRequiredAreParsed(f, p, typeMap, RequiredColumns);
  }

  /** When `date` and `amount` are both required, every cleaned row holds a
      parsed date and a number in them. */
  lemma CleanedRequiredAreParsed(f: Frame, p: Parsers, typeMap: Option<map<string, string>>, required: seq<string>)
    requires CleanTransactions(f, p, typeMap, required).Ok?
    requires "date" in required && "amount" in required
    ensures var out := CleanTransactions(f, p, typeMap, required).value.rows;
      forall i :: 0 <= i < |out| ==> Get(out[i], "date").When? && Get(out[i], "amount").Number?
  {
    var out := CleanTransactions(f, p, typeMap, required).value.rows;
    var tm, hasType := EffectiveTypeMap(typeMap), "type" in f.columns;
    var parsed := CleanRows(p, tm, hasType, f.rows);
    var idx := Survivors(parsed, required);
    forall i | 0 <= i < |out| ensures Get(out[i], "date").When? && Get(out[i], "amount").Number? {
      assert out[i] == parsed[idx[i]] == CleanRow(p, tm, hasType, f.rows[idx[i]]);
      CompleteRowParsed(p, tm, hasType, f.rows[idx[i]], required);
    }
  }

  lemma CompleteRowParsed(p: Parsers, typeMap: map<string, string>, hasType: bool, r: Row, required: seq<string>)
    requires "date" in required && "amount" in required
    requires Complete(CleanRow(p, typeMap, hasType, r), required)
    ensures Get(CleanRow(p, typeMap, hasType, r), "date").When? && Get(CleanRow(p, typeMap, hasType, r), "amount").Number?
  {
    var c := CleanRow(p, typeMap, hasType, r);
    assert Get(c, "date") == ParseDate(p, Get(r, "date")) && Get(c, "amount") == ParseAmount(p, Get(r, "amount"));
  }

  /** The cleaned rows are exactly the input rows, parsed and normalized,
      that have no null in a required column, in their original order:
      output row `k` comes from input row `idx[k]`, `idx` is increasing,
      and an input row is kept exactly when it is complete after parsing. */
  lemma CleanKeepsExactlyCompleteRows(f: Frame, p: Parsers, typeMap: Option<map<string, string>>, required: seq<string>)
    requires CleanTransactions(f, p, typeMap, required).Ok?
    ensures var out := CleanTransactions(f, p, typeMap, required).value.rows;
      var tm, hasType := EffectiveTypeMap(typeMap), "type" in f.columns;
      var idx := Survivors(CleanRows(p, tm, hasType, f.rows), required);
      && |idx| == |out|
      && (forall k :: 0 <= k < |idx| ==> idx[k] < |f.rows| && out[k] == CleanRow(p, tm, hasType, f.rows[idx[k]]))
      && (forall k, l :: 0 <= k < l < |idx| ==> idx[k] < idx[l])
      && (forall i :: 0 <= i < |f.rows| ==> (i in idx <==> Complete(CleanRow(p, tm, hasType, f.rows[i]), required)))
  {
    var out := CleanTransactions(f, p, typeMap, required).value.rows;
    var tm, hasType := EffectiveTypeMap(typeMap), "type" in f.columns;
    var parsed := CleanRows(p, tm, hasType, f.rows);
    var idx := Survivors(parsed, required);
    assert out == DropIncomplete(parsed, required);
    forall k | 0 <= k < |idx| ensures idx[k] < |f.rows| && out[k] == CleanRow(p, tm, hasType, f.rows[idx[k]]) {
      assert out[k] == parsed[idx[k]];
    }
    SurvivorsExactlyComplete(parsed, required);
    forall i | 0 <= i < |f.rows| ensures i in idx <==> Complete(CleanRow(p, tm, hasType, f.rows[i]), required) {
      assert parsed[i] == CleanRow(p, tm, hasType, f.rows[i]);
    }
  }

  /** Cleaning passes every column other than `date`, `amount` and `type`
      through unchanged and creates no `type` column: output row `k` agrees
      with its input row on every other column. */
  lemma CleanPassesOtherColumns(f: Frame, p: Parsers, typeMap: Option<map<string, string>>, required: seq<string>, k: nat, c: string)
    requires CleanTransactions(f, p, typeMap, required).Ok?
    requires k < |CleanTransactions(f, p, typeMap, required).value.rows|
    ensures var out := CleanTransactions(f, p, typeMap, required).value.rows;
      var idx := Survivors(CleanRows(p, EffectiveTypeMap(typeMap), "type" in f.columns, f.rows), required);
      && idx[k] < |f.rows|
      && (c != "date" && c != "amount" && c != "type" ==> Get(out[k], c) == Get(f.rows[idx[k]], c))
      && ("type" !in f.columns ==> Get(out[k], "type") == Get(f.rows[idx[k]], "type"))
  {
    var tm := EffectiveTypeMap(typeMap);
    var parsed := CleanRows(p, tm, "type" in f.columns, f.rows);
    var idx := Survivors(parsed, required);
    assert CleanTransactions(f, p, typeMap, required).value.rows[k] == parsed[idx[k]];
    CleanRowOtherColumns(p, tm, "type" in f.columns, f.rows[idx[k]]);
  }

  /** Output row `k` holds its input row's `date` and `amount` run through
      the parsers (a value they reject becomes null, and stays in the output
      when its column is not required) and, when the frame has a `type`
      column, its type text normalized through the effective table. */
  lemma CleanParsesRow(f: Frame, p: Parsers, typeMap: Option<map<string, string>>, required: seq<string>, k: nat)
    requires CleanTransactions(f, p, typeMap, required).Ok?
    requires k < |CleanTransactions(f, p, typeMap, required).value.rows|
    ensures var out := CleanTransactions(f, p, typeMap, required).value.rows;
      var idx := Survivors(CleanRows(p, EffectiveTypeMap(typeMap), "type" in f.columns, f.rows), required);
      var src := f.rows[idx[k]];
      && idx[k] < |f.rows|
      && Get(out[k], "date") == ParseDate(p, Get(src, "date"))
      && Get(out[k], "amount") == ParseAmount(p, Get(src, "amount"))
      && ("type" in f.columns ==>
            Get(out[k], "type") == Text(NormalizeType(EffectiveTypeMap(typeMap), CellText(Get(src, "type")))))
  {
    var tm := EffectiveTypeMap(typeMap);
    var parsed := CleanRows(p, tm, "type" in f.columns, f.rows);
    var idx := Survivors(parsed, required);
    assert CleanTransactions(f, p, typeMap, required).value.rows[k] == parsed[idx[k]];
    assert parsed[idx[k]] == CleanRow(p, tm, "type" in f.columns, f.rows[idx[k]]);
    CleanRowCells(p, tm, "type" in f.columns, f.rows[idx[k]]);
  }

  /** No table and an empty table both clean with the default table. */
  lemma CleanEmptyTableIsDefault(f: Frame, p: Parsers, required: seq<string>)
    ensures CleanTransactions(f, p, Some(map[]), required) == CleanTransactions(f, p, None, required)
    ensures EffectiveTypeMap(None) == DefaultTypeMap
  {
  }

  /** Cleaning a well-formed frame gives a well-formed frame with the same
      columns. */
  lemma CleanKeepsWellFormed(f: Frame, p: Parsers, typeMap: Option<map<string, string>>, required: seq<string>)
    requires WellFormed(f)
    requires CleanTransactions(f, p, typeMap, required).Ok?
    ensures WellFormed(CleanTransactions(f, p, typeMap, required).value)
  {
    var out := CleanTransactions(f, p, typeMap, required).value;
    var tm := EffectiveTypeMap(typeMap);
    var parsed := CleanRows(p, tm, "type" in f.columns, f.rows);
    var idx := Survivors(parsed, required);
    forall k | 0 <= k < |out.rows| ensures out.rows[k].Keys == out.columns {
      var i := idx[k];
      assert out.rows[k] == parsed[i] == CleanRow(p, tm, "type" in f.columns, f.rows[i]);
      CleanRowKeys(p, tm, f.columns, f.rows[i]);
    }
  }

  /** A row with exactly the frame's columns, which include `date` and
      `amount`, keeps exactly those columns when cleaned. */
  lemma CleanRowKeys(p: Parsers, typeMap: map<string, string>, columns: set<string>, r: Row)
    requires r.Keys == columns && "date" in columns && "amount" in columns
    ensures CleanRow(p, typeMap, "type" in columns, r).Keys == columns
  {
  }

  lemma {:induction false} DropIncompleteKeepsComplete(rows: seq<Row>, required: seq<string>)
    requires forall i :: 0 <= i < |rows| ==> Complete(rows[i], required)
    ensures DropIncomplete(rows, required) == rows
  {
    if rows != [] {
      DropIncompleteKeepsComplete(rows[..|rows| - 1], required);
      assert rows[..|rows| - 1] + [rows[|rows| - 1]] == rows;
    }
  }

  /** Normalizing a normalized value changes nothing, when the table's
      values are fixed points of normalization. */
  lemma NormalizeIdempotent(typeMap: map<string, string>, raw: string)
    requires StableTypeMap(typeMap)
    ensures NormalizeType(typeMap, NormalizeType(typeMap, raw)) == NormalizeType(typeMap, raw)
  {
    var t := NormalizeType(typeMap, raw);
    if t in typeMap.Values {
      var k :| k in typeMap && typeMap[k] == t;
    } else {
      NormalizeFixedPoint(typeMap, t);
    }
  }

  lemma UpdateSame(r: Row, c: string, v: Cell)
    requires c in r && r[c] == v
    ensures r[c := v] == r
  {
  }

  /** A cleaned row is left unchanged by cleaning it again, when the table's
      values are fixed points of normalization. */
  lemma CleanRowIdempotent(p: Parsers, typeMap: map<string, string>, hasType: bool, r: Row)
    requires StableTypeMap(typeMap)
    ensures CleanRow(p, typeMap, hasType, CleanRow(p, typeMap, hasType, r)) == CleanRow(p, typeMap, hasType, r)
  {
    var once := CleanRow(p, typeMap, hasType, r);
    var d := ParseDate(p, Get(r, "date"));
    var a := ParseAmount(p, Get(r, "amount"));
    assert Get(once, "date") == d && Get(once, "amount") == a;
    assert ParseDate(p, d) == d && ParseAmount(p, a) == a;
    UpdateSame(once, "date", d);
    UpdateSame(once, "amount", a);
    if hasType {
      var t := NormalizeType(typeMap, CellText(Get(r, "type")));
      assert Get(once, "type") == Text(t);
      NormalizeIdempotent(typeMap, CellText(Get(r, "type")));
      UpdateSame(once, "type", Text(t));
    }
  }

  /** Cleaning a cleaned frame again (same parsers, table and required
      columns) gives the same frame, when the table's values are fixed
      points of normalization. */
  lemma CleanIdempotent(f: Frame, p: Parsers, typeMap: Option<map<string, string>>, required: seq<string>)
    requires CleanTransactions(f, p, typeMap, required).Ok?
    requires StableTypeMap(EffectiveTypeMap(typeMap))
    ensures CleanTransactions(CleanTransactions(f, p, typeMap, required).value, p, typeMap, required)
      == CleanTransactions(f, p, typeMap, required)
  {
    var tm := EffectiveTypeMap(typeMap);
    var hasType := "type" in f.columns;
    var out := CleanTransactions(f, p, typeMap, required).value;
    var idx := Survivors(CleanRows(p, tm, hasType, f.rows), required);
    CleanKeepsExactlyCompleteRows(f, p, typeMap, required);
    forall k | 0 <= k < |out.rows| ensures CleanRow(p, tm, hasType, out.rows[k]) == out.rows[k] {
      CleanRowIdempotent(p, tm, hasType, f.rows[idx[k]]);
    }
    CleanRowsFixed(p, tm, hasType, out.rows);
    DropIncompleteKeepsComplete(out.rows, required);
  }

  lemma CleanRowsFixed(p: Parsers, typeMap: map<string, string>, hasType: bool, rows: seq<Row>)
    requires forall k :: 0 <= k < |rows| ==> CleanRow(p, typeMap, hasType, rows[k]) == rows[k]
    ensures CleanRows(p, typeMap, hasType, rows) == rows
  {
  }

  /** With the default table, cleaning is idempotent. */
  lemma CleanIdempotentByDefault(f: Frame, p: Parsers, required: seq<string>)
    requires CleanTransactions(f, p, None, required).Ok?
    ensures CleanTransactions(CleanTransactions(f, p, None, required).value, p, None, required)
      == CleanTransactions(f, p, None, required)
  {
    DefaultTypeMapStable();
    CleanIdempotent(f, p, None, required);
  }

  /** Without stable values a table can break idempotence: under a table
      {a: b, b: c} with c different from b (such as {"A": "B", "B": "C"}),
      `a` normalizes to `b`, and normalizing again moves it on to `c`. */
  lemma ChainedTableNotIdempotent(a: string, b: string, c: string)
    requires a != b && b != c
    requires Stripped(a) && NoLower(a) && Stripped(b) && NoLower(b)
    ensures var tm := map[a := b, b := c];
      && NormalizeType(tm, a) == b
      && NormalizeType(tm, NormalizeType(tm, a)) == c
      && NormalizeType(tm, NormalizeType(tm, a)) != NormalizeType(tm, a)
  {
    var tm := map[a := b, b := c];
    NormalizeStripped(tm, a);
    NormalizeStripped(tm, b);
  }
}

=== FILE: samples.dfy ===
/** The outcomes of the repository's tests, stated over their sample
    transactions: SampleIncomeExpense, SampleCategories, SampleMonths,
    SampleCleaning and SampleMissingDate. The other lemmas are steps of
    their proofs, most of them stated over variables instead of the literal
    rows, so the solver never unfolds the literal frames all at once. */
module Samples {
  import opened Table
  import opened Strings
  import opened Aggregate
  import opened Cleaning
  import opened Summary

  function Txn(y: YearNumber, m: MonthNumber, d: DayNumber, amount: int, kind: string, category: string): Row {
    map["date" := When(Date(y, m, d)), "amount" := Number(amount), "type" := Text(kind), "category" := Text(category)]
  }

  /** Two salaries, groceries and utilities over January and February 2024. */
  function SampleFrame(): Frame {
    Frame({"date", "amount", "type", "category"}, [Salary1(), Groceries(), Salary2(), Utilities()])
  }

  function Salary1(): Row { Txn(2024, 1, 1, 1000, "INCOME", "Salary") }
  function Groceries(): Row { Txn(2024, 1, 2, -50, "EXPENSE", "Groceries") }
  function Salary2(): Row { Txn(2024, 2, 1, 2000, "INCOME", "Salary") }
  function Utilities(): Row { Txn(2024, 2, 15, -100, "EXPENSE", "Utilities") }

  lemma SampleIncomeExpense()
    ensures IncomeExpenseSummary(SampleFrame()) == Ok([LabelTotal("INCOME", 3000), LabelTotal("EXPENSE", -150), LabelTotal("NET", 3150)])
  {
  }

  /** The categories are Salary, Groceries and Utilities; Salary totals 3000. */
  lemma SampleCategories()
    ensures var r := SummaryByCategory(SampleFrame(), true, true);
      && r.Ok?
      && KeySet(r.value) == {Text("Salary"), Text("Groceries"), Text("Utilities")}
      && Bucket(Text("Salary"), 3000) in r.value
  {
    var f := SampleFrame();
    FilterKeepsAll(f.rows, true, true, true);
    var entries := SampleCategoryEntries();
    var r := SummaryByCategory(f, true, true).value;
    assert Text("Salary") in KeySet(r);
    var b :| b in r && b.key == Text("Salary");
  }

  lemma SampleCategoryEntries() returns (entries: seq<Bucket<Cell>>)
    ensures entries == Entries(SampleFrame().rows, "category")
    ensures KeySet(entries) == {Text("Salary"), Text("Groceries"), Text("Utilities")}
    ensures SumOf(entries, Text("Salary")) == 3000
  {
    var b1, b2, b3, b4 := Bucket(Text("Salary"), 1000), Bucket(Text("Groceries"), -50),
                          Bucket(Text("Salary"), 2000), Bucket(Text("Utilities"), -100);
    SampleCategoryList();
    entries := [b1, b2, b3, b4];
    FourBuckets(b1, b2, b3, b4, Text("Salary"));
    assert {b1.key, b2.key, b3.key, b4.key} == {Text("Salary"), Text("Groceries"), Text("Utilities")};
  }

  lemma FourBuckets<K>(b1: Bucket<K>, b2: Bucket<K>, b3: Bucket<K>, b4: Bucket<K>, k: K)
    ensures KeySet([b1, b2, b3, b4]) == {b1.key, b2.key, b3.key, b4.key}
    ensures SumOf([b1, b2, b3, b4], k)
      == (if b1.key == k then b1.amount else 0) + (if b2.key == k then b2.amount else 0)
       + (if b3.key == k then b3.amount else 0) + (if b4.key == k then b4.amount else 0)
  {
    var s := [b1, b2, b3, b4];
    assert s[1..] == [b2, b3, b4] && s[1..][1..] == [b3, b4] && s[1..][1..][1..] == [b4];
    assert b1 in s && b2 in s && b3 in s && b4 in s;
    Singleton(b4, k);
    assert SumOf([b3, b4], k) == (if b3.key == k then b3.amount else 0) + SumOf([b4], k);
    assert SumOf([b2, b3, b4], k) == (if b2.key == k then b2.amount else 0) + SumOf([b3, b4], k);
  }

  lemma SampleCategoryList()
    ensures Entries(SampleFrame().rows, "category")
      == [Bucket(Text("Salary"), 1000), Bucket(Text("Groceries"), -50), Bucket(Text("Salary"), 2000), Bucket(Text("Utilities"), -100)]
  {
    SampleCells();
    var b1, b2, b3, b4 := Bucket(Text("Salary"), 1000), Bucket(Text("Groceries"), -50),
                          Bucket(Text("Salary"), 2000), Bucket(Text("Utilities"), -100);
    assert Entries([Utilities()], "category") == [b4];
    assert Entries([Salary2(), Utilities()], "category") == [b3, b4];
    assert Entries([Groceries(), Salary2(), Utilities()], "category") == [b2, b3, b4];
  }

  /** The monthly periods are 2024-01 and 2024-02. */
  lemma SampleMonths()
    ensures var r := SummaryByMonth(SampleFrame(), Month);
      r.Ok? && Periods(r.value) == {"2024-01", "2024-02"}
  {
    SampleDatesParsed();
    SampleIncomePeriods();
    SampleExpensePeriods();
    SampleFrameColumns();
    MonthPeriods(SampleFrame(), Month, {"2024-01", "2024-02"});
  }

  lemma SampleFrameColumns()
    ensures "date" in SampleFrame().columns && "amount" in SampleFrame().columns && "type" in SampleFrame().columns
  {
  }

  /** A frame with the three columns and parsed dates, whose INCOME and
      EXPENSE rows fall in the same periods, summarizes by period without
      error, over exactly those periods. */
  lemma MonthPeriods(f: Frame, g: Granularity, periods: set<string>)
    requires "date" in f.columns && "amount" in f.columns && "type" in f.columns && DatesParsed(f.rows)
    requires KeySet(PeriodEntries(f.rows, "INCOME", g)) == periods && KeySet(PeriodEntries(f.rows, "EXPENSE", g)) == periods
    ensures var r := SummaryByMonth(f, g);
      r.Ok? && Periods(r.value) == periods
  {
  }

  lemma SampleDatesParsed()
    ensures DatesParsed(SampleFrame().rows)
  {
    SampleCells();
  }

  lemma TxnCells(y: YearNumber, m: MonthNumber, d: DayNumber, amount: int, kind: string, category: string)
    ensures var r := Txn(y, m, d, amount, kind, category);
      && Get(r, "date") == When(Date(y, m, d)) && Get(r, "amount") == Number(amount)
      && Get(r, "type") == Text(kind) && Get(r, "category") == Text(category)
  {
  }

  lemma SampleCells()
    ensures Get(Salary1(), "date") == When(Date(2024, 1, 1)) && Get(Salary1(), "amount") == Number(1000)
    ensures Get(Salary1(), "type") == Text("INCOME") && Get(Salary1(), "category") == Text("Salary")
    ensures Get(Groceries(), "date") == When(Date(2024, 1, 2)) && Get(Groceries(), "amount") == Number(-50)
    ensures Get(Groceries(), "type") == Text("EXPENSE") && Get(Groceries(), "category") == Text("Groceries")
    ensures Get(Salary2(), "date") == When(Date(2024, 2, 1)) && Get(Salary2(), "amount") == Number(2000)
    ensures Get(Salary2(), "type") == Text("INCOME") && Get(Salary2(), "category") == Text("Salary")
    ensures Get(Utilities(), "date") == When(Date(2024, 2, 15)) && Get(Utilities(), "amount") == Number(-100)
    ensures Get(Utilities(), "type") == Text("EXPENSE") && Get(Utilities(), "category") == Text("Utilities")
  {
    TxnCells(2024, 1, 1, 1000, "INCOME", "Salary");
    TxnCells(2024, 1, 2, -50, "EXPENSE", "Groceries");
    TxnCells(2024, 2, 1, 2000, "INCOME", "Salary");
    TxnCells(2024, 2, 15, -100, "EXPENSE", "Utilities");
  }

  lemma SampleLabels()
    ensures PeriodLabel(When(Date(2024, 1, 1)), Month) == "2024-01"
    ensures PeriodLabel(When(Date(2024, 1, 2)), Month) == "2024-01"
    ensures PeriodLabel(When(Date(2024, 2, 1)), Month) == "2024-02"
    ensures PeriodLabel(When(Date(2024, 2, 15)), Month) == "2024-02"
  {
    MonthLabel(Date(2024, 1, 1));
    MonthLabel(Date(2024, 1, 2));
    MonthLabel(Date(2024, 2, 1));
    MonthLabel(Date(2024, 2, 15));
    LiteralPads();
  }

  lemma LiteralPads()
    ensures Pad4(2024) == "2024" && Pad2(1) == "01" && Pad2(2) == "02"
  {
    assert Pad2(20) == "20" && Pad2(24) == "24";
  }

  lemma MonthLabel(d: Date)
    ensures PeriodLabel(When(d), Month) == Pad4(d.year) + "-" + Pad2(d.month)
  {
  }

  lemma SampleIncomePeriods()
    ensures KeySet(PeriodEntries(SampleFrame().rows, "INCOME", Month)) == {"2024-01", "2024-02"}
  {
    SampleIncomeList();
    TwoBuckets(Bucket("2024-01", 1000), Bucket("2024-02", 2000));
  }

  lemma SampleExpensePeriods()
    ensures KeySet(PeriodEntries(SampleFrame().rows, "EXPENSE", Month)) == {"2024-01", "2024-02"}
  {
    SampleExpenseList();
    TwoBuckets(Bucket("2024-01", -50), Bucket("2024-02", -100));
  }

  lemma TwoBuckets<K>(b1: Bucket<K>, b2: Bucket<K>)
    ensures KeySet([b1, b2]) == {b1.key, b2.key}
  {
    assert b1 in [b1, b2] && b2 in [b1, b2];
  }

  lemma SampleIncomeList()
    ensures PeriodEntries(SampleFrame().rows, "INCOME", Month) == [Bucket("2024-01", 1000), Bucket("2024-02", 2000)]
  {
    var jan, feb := "2024-01", "2024-02";
    SampleLabels();
    SampleCells();
    SampleDatesParsed();
    assert PeriodEntries([Utilities()], "INCOME", Month) == [];
    assert PeriodEntries([Salary2(), Utilities()], "INCOME", Month) == [Bucket(feb, 2000)];
    assert PeriodEntries([Groceries(), Salary2(), Utilities()], "INCOME", Month) == [Bucket(feb, 2000)];
  }

  lemma SampleExpenseList()
    ensures PeriodEntries(SampleFrame().rows, "EXPENSE", Month) == [Bucket("2024-01", -50), Bucket("2024-02", -100)]
  {
    var jan, feb := "2024-01", "2024-02";
    SampleLabels();
    SampleCells();
    SampleDatesParsed();
    assert PeriodEntries([Utilities()], "EXPENSE", Month) == [Bucket(feb, -100)];
    assert PeriodEntries([Salary2(), Utilities()], "EXPENSE", Month) == [Bucket(feb, -100)];
    assert PeriodEntries([Groceries(), Salary2(), Utilities()], "EXPENSE", Month) == [Bucket(jan, -50), Bucket(feb, -100)];
  }

  /** A raw row: every cell is text, as read from a CSV file. */
  function RawRow(date: string, amount: string, kind: string, category: string): Row {
    map["date" := Text(date), "amount" := Text(amount), "type" := Text(kind), "category" := Text(category)]
  }

  /** The rows of the cleaning test, with the `type` texts left open. */
  function RawFrame(t1: string, t2: string, t3: string): Frame {
    Frame({"date", "amount", "type", "category"}, [
      RawRow("2024-01-01", "100", t1, "Salary"),
      RawRow("invalid", "abc", t2, "Groceries"),
      RawRow("2024-01-03", "200", t3, "Bonus")])
  }

  /** Parsers that read the two good dates and amounts and reject "invalid"
      and "abc". */
  predicate SampleParsers(p: Parsers) {
    && p.date(Text("2024-01-01")) == Some(Date(2024, 1, 1))
    && p.date(Text("invalid")) == None
    && p.date(Text("2024-01-03")) == Some(Date(2024, 1, 3))
    && p.number(Text("100")) == Some(100)
    && p.number(Text("abc")) == None
    && p.number(Text("200")) == Some(200)
  }

  /** The cleaning test: the "invalid"/"abc" row (the second) is dropped,
      and the first and third rows are kept, in order, with their dates and
      amounts parsed and their types "credit" and "INCOME" both normalized to
      INCOME. */
  lemma SampleCleaning(p: Parsers)
    requires SampleParsers(p)
    ensures var r := CleanTransactions(RawFrame("credit", "debit", "INCOME"), p, None, RequiredColumns);
      && r.Ok? && |r.value.rows| == 2
      && Get(r.value.rows[0], "category") == Text("Salary") && Get(r.value.rows[1], "category") == Text("Bonus")
      && Get(r.value.rows[0], "date") == When(Date(2024, 1, 1)) && Get(r.value.rows[1], "date") == When(Date(2024, 1, 3))
      && Get(r.value.rows[0], "amount") == Number(100) && Get(r.value.rows[1], "amount") == Number(200)
      && Get(r.value.rows[0], "type") == Text("INCOME") && Get(r.value.rows[1], "type") == Text("INCOME")
  {
    var f := RawFrame("credit", "debit", "INCOME");
    var r1, r2, r3 := f.rows[0], f.rows[1], f.rows[2];
    RawCells("2024-01-01", "100", "credit", "Salary");
    RawCells("invalid", "abc", "debit", "Groceries");
    RawCells("2024-01-03", "200", "INCOME", "Bonus");
    SampleColumns("credit", "debit", "INCOME");
    KeptRow(p, DefaultTypeMap, r1, "credit");
    DroppedRow(p, DefaultTypeMap, r2);
    KeptRow(p, DefaultTypeMap, r3, "INCOME");
    CreditIsIncome();
    IncomeStaysIncome();
    CleanOuter(p, f, None, RequiredColumns, r1, r2, r3);
  }

  lemma CleanOuter(p: Parsers, f: Frame, typeMap: Option<map<string, string>>, required: seq<string>, r1: Row, r2: Row, r3: Row)
    requires f.rows == [r1, r2, r3]
    requires MissingColumns(f.columns, required) == [] && "date" in f.columns && "amount" in f.columns && "type" in f.columns
    requires Complete(CleanRow(p, EffectiveTypeMap(typeMap), true, r1), required)
    requires !Complete(CleanRow(p, EffectiveTypeMap(typeMap), true, r2), required)
    requires Complete(CleanRow(p, EffectiveTypeMap(typeMap), true, r3), required)
    ensures CleanTransactions(f, p, typeMap, required)
      == Ok(Frame(f.columns, [CleanRow(p, EffectiveTypeMap(typeMap), true, r1), CleanRow(p, EffectiveTypeMap(typeMap), true, r3)]))
  {
    CleanResult(p, f, typeMap, required);
    KeepOuter(p, EffectiveTypeMap(typeMap), r1, r2, r3, required);
  }

  /** Cleaning three rows of which only the middle one is incomplete keeps
      the outer two. */
  lemma KeepOuter(p: Parsers, typeMap: map<string, string>, r1: Row, r2: Row, r3: Row, required: seq<string>)
    requires Complete(CleanRow(p, typeMap, true, r1), required)
    requires !Complete(CleanRow(p, typeMap, true, r2), required)
    requires Complete(CleanRow(p, typeMap, true, r3), required)
    ensures DropIncomplete(CleanRows(p, typeMap, true, [r1, r2, r3]), required)
      == [CleanRow(p, typeMap, true, r1), CleanRow(p, typeMap, true, r3)]
  {
    CleanThreeRows(p, typeMap, r1, r2, r3);
    DropMiddle(CleanRow(p, typeMap, true, r1), CleanRow(p, typeMap, true, r2), CleanRow(p, typeMap, true, r3), required);
  }

  lemma CleanResult(p: Parsers, f: Frame, typeMap: Option<map<string, string>>, required: seq<string>)
    requires MissingColumns(f.columns, required) == [] && "date" in f.columns && "amount" in f.columns
    ensures CleanTransactions(f, p, typeMap, required)
      == Ok(Frame(f.columns, DropIncomplete(CleanRows(p, EffectiveTypeMap(typeMap), "type" in f.columns, f.rows), required)))
  {
  }

  lemma CleanThreeRows(p: Parsers, typeMap: map<string, string>, r1: Row, r2: Row, r3: Row)
    ensures CleanRows(p, typeMap, true, [r1, r2, r3])
      == [CleanRow(p, typeMap, true, r1), CleanRow(p, typeMap, true, r2), CleanRow(p, typeMap, true, r3)]
  {
    var rows := [r1, r2, r3];
    assert rows[0] == r1 && rows[1] == r2 && rows[2] == r3;
    ThreeElements(CleanRows(p, typeMap, true, rows),
      CleanRow(p, typeMap, true, r1), CleanRow(p, typeMap, true, r2), CleanRow(p, typeMap, true, r3));
  }

  lemma ThreeElements<T>(s: seq<T>, a: T, b: T, c: T)
    requires |s| == 3 && s[0] == a && s[1] == b && s[2] == c
    ensures s == [a, b, c]
  {
  }

  lemma SampleColumns(t1: string, t2: string, t3: string)
    ensures var f := RawFrame(t1, t2, t3);
      && MissingColumns(f.columns, RequiredColumns) == []
      && "date" in f.columns && "amount" in f.columns && "type" in f.columns
  {
  }

  /** A row whose date and amount parse is kept, with the parsed values, its
      category, and its type as the table says. */
  lemma KeptRow(p: Parsers, typeMap: map<string, string>, r: Row, t: string)
    requires p.date(Get(r, "date")).Some? && p.number(Get(r, "amount")).Some?
    requires Get(r, "date").Text? && Get(r, "amount").Text? && Get(r, "type") == Text(t)
    ensures Complete(CleanRow(p, typeMap, true, r), RequiredColumns)
    ensures Get(CleanRow(p, typeMap, true, r), "date") == When(p.date(Get(r, "date")).value)
    ensures Get(CleanRow(p, typeMap, true, r), "amount") == Number(p.number(Get(r, "amount")).value)
    ensures Get(CleanRow(p, typeMap, true, r), "category") == Get(r, "category")
    ensures Get(CleanRow(p, typeMap, true, r), "type") == Text(NormalizeType(typeMap, t))
  {
    KeptCells(p, typeMap, r);
    assert RequiredColumns == ["date", "amount"];
  }

  lemma KeptCells(p: Parsers, typeMap: map<string, string>, r: Row)
    requires p.date(Get(r, "date")).Some? && p.number(Get(r, "amount")).Some?
    requires Get(r, "date").Text? && Get(r, "amount").Text?
    ensures Get(CleanRow(p, typeMap, true, r), "date") == When(p.date(Get(r, "date")).value)
    ensures Get(CleanRow(p, typeMap, true, r), "amount") == Number(p.number(Get(r, "amount")).value)
    ensures Get(CleanRow(p, typeMap, true, r), "category") == Get(r, "category")
    ensures Get(CleanRow(p, typeMap, true, r), "type") == Text(NormalizeType(typeMap, CellText(Get(r, "type"))))
  {
    CleanRowCells(p, typeMap, true, r);
    CleanRowOtherColumns(p, typeMap, true, r);
  }

  /** A row whose date does not parse is dropped. */
  lemma DroppedRow(p: Parsers, typeMap: map<string, string>, r: Row)
    requires Get(r, "date").Text? && p.date(Get(r, "date")).None?
    ensures !Complete(CleanRow(p, typeMap, true, r), RequiredColumns)
  {
    CleanRowCells(p, typeMap, true, r);
    assert "date" in RequiredColumns;
  }

  lemma DropMiddle(a: Row, b: Row, c: Row, required: seq<string>)
    requires Complete(a, required) && !Complete(b, required) && Complete(c, required)
    ensures DropIncomplete([a, b, c], required) == [a, c]
  {
    assert [a, b, c][..2] == [a, b] && [a, b][..1] == [a] && [a][..0] == [];
    assert DropIncomplete([a], required) == [a];
    assert DropIncomplete([a, b], required) == [a];
  }

  lemma RawCells(date: string, amount: string, kind: string, category: string)
    ensures var r := RawRow(date, amount, kind, category);
      && Get(r, "date") == Text(date) && Get(r, "amount") == Text(amount)
      && Get(r, "type") == Text(kind) && Get(r, "category") == Text(category)
  {
  }

  /** A frame with an `amount` column but no `date` column fails with a
      `KeyError` naming `date`. */
  lemma SampleMissingDate(p: Parsers, rows: seq<Row>)
    ensures CleanTransactions(Frame({"amount"}, rows), p, None, RequiredColumns) == Err(KeyError(["date"]))
  {
    assert "date" !in {"amount"} && "amount" in {"amount"};
  }
}

=== FILE: strings.dfy ===
/** String helpers the cleaner and the period labels rely on: Python's
    `str.strip()` and `str.upper()`, and zero-padded decimal digits. */
module Strings {

  /** The characters Python's `str.isspace()` accepts, which `str.strip()` removes. */
  predicate IsSpace(c: char) {
    || c == ' '
    || ('\t' <= c <= '\r')
    || ('\U{1C}' <= c <= '\U{1F}')
    || c == '\U{85}' || c == '\U{A0}' || c == '\U{1680}'
    || ('\U{2000}' <= c <= '\U{200A}')
    || c == '\U{2028}' || c == '\U{2029}' || c == '\U{202F}' || c == '\U{205F}' || c == '\U{3000}'
  }

  predicate AllSpace(s: string) {
    forall i :: 0 <= i < |s| ==> IsSpace(s[i])
  }

  lemma AllSpaceAppend(a: string, b: string)
    requires AllSpace(a) && AllSpace(b)
    ensures AllSpace(a + b)
  {
    forall i | 0 <= i < |a + b| ensures IsSpace((a + b)[i]) {
      if i < |a| { assert (a + b)[i] == a[i]; } else { assert (a + b)[i] == b[i - |a|]; }
    }
  }

  /** Neither end of `s` is whitespace. */
  predicate Stripped(s: string) {
    s == [] || (!IsSpace(s[0]) && !IsSpace(s[|s| - 1]))
  }

  /** The end of the run of whitespace that starts at `i`. */
  function SpaceRunEnd(s: string, i: nat): (k: nat)
    requires i <= |s|
    ensures i <= k <= |s|
    ensures forall j :: i <= j < k ==> IsSpace(s[j])
    ensures k < |s| ==> !IsSpace(s[k])
    decreases |s| - i
  {
    if i < |s| && IsSpace(s[i]) then SpaceRunEnd(s, i + 1) else i
  }

  /** The start of the run of whitespace that ends at `j`, not going below `lo`. */
  function SpaceRunStart(s: string, lo: nat, j: nat): (k: nat)
    requires lo <= j <= |s|
    ensures lo <= k <= j
    ensures forall m :: k <= m < j ==> IsSpace(s[m])
    ensures lo < k ==> !IsSpace(s[k - 1])
    decreases j
  {
    if lo < j && IsSpace(s[j - 1]) then SpaceRunStart(s, lo, j - 1) else j
  }

  /** Python's `str.strip()`: `s` is whitespace, then `r`, then whitespace,
      and `r` is the only such middle part that is itself stripped
      (lemma StripUnique). */
  function Strip(s: string): (r: string)
    ensures Stripped(r)
    ensures exists a, b :: s == a + r + b && AllSpace(a) && AllSpace(b)
  {
    var i := SpaceRunEnd(s, 0);
    var j := SpaceRunStart(s, i, |s|);
    StripParts(s, i, j);
    var a, r, b := s[0..i], s[i..j], s[j..|s|];
    assert s == a + r + b && AllSpace(a) && AllSpace(b);
    r
  }

  /** The runs `SpaceRunEnd` and `SpaceRunStart` find split `s` into
      whitespace, a stripped middle and whitespace. */
  lemma StripParts(s: string, i: nat, j: nat)
    requires i <= j <= |s|
    requires forall m :: 0 <= m < i ==> IsSpace(s[m])
    requires forall m :: j <= m < |s| ==> IsSpace(s[m])
    requires i < j ==> !IsSpace(s[i]) && !IsSpace(s[j - 1])
    ensures s == s[0..i] + s[i..j] + s[j..|s|]
    ensures AllSpace(s[0..i]) && AllSpace(s[j..|s|]) && Stripped(s[i..j])
  {
    SplitAt(s, i, j);
    SpaceSlice(s, 0, i);
    SpaceSlice(s, j, |s|);
    MiddleStripped(s, i, j);
  }

  lemma MiddleStripped(s: string, i: nat, j: nat)
    requires i <= j <= |s|
    requires i < j ==> !IsSpace(s[i]) && !IsSpace(s[j - 1])
    ensures Stripped(s[i..j])
  {
    var r := s[i..j];
    assert i < j ==> r[0] == s[i] && r[j - i - 1] == s[j - 1];
  }

  lemma SplitAt(s: string, i: nat, j: nat)
    requires i <= j <= |s|
    ensures s == s[0..i] + s[i..j] + s[j..|s|]
  {
  }

  lemma SpaceSlice(s: string, i: nat, j: nat)
    requires i <= j <= |s|
    requires forall m :: i <= m < j ==> IsSpace(s[m])
    ensures AllSpace(s[i..j])
  {
    forall m | 0 <= m < j - i ensures IsSpace(s[i..j][m]) {
      assert s[i..j][m] == s[i + m];
    }
  }

  /** Stripping a string made of whitespace, a stripped middle and
      whitespace gives back exactly that middle. */
  lemma StripUnique(a: string, r: string, b: string)
    requires AllSpace(a) && AllSpace(b) && Stripped(r)
    ensures Strip(a + r + b) == r
  {
    var s := a + r + b;
    forall m | 0 <= m < |a| ensures s[m] == a[m] { }
    forall m | 0 <= m < |r| ensures s[|a| + m] == r[m] { }
    forall m | 0 <= m < |b| ensures s[|a| + |r| + m] == b[m] { }
    var i := SpaceRunEnd(s, 0);
    var j := SpaceRunStart(s, i, |s|);
    if r == [] {
      assert i == |s|;
      assert s[i..j] == [];
    } else {
      assert !IsSpace(s[|a|]);
      assert i == |a|;
      assert !IsSpace(s[|a| + |r| - 1]);
      assert j == |a| + |r|;
      assert s[i..j] == r;
    }
  }

  /** A string with no whitespace at either end is its own strip. */
  lemma StripStripped(s: string)
    requires Stripped(s)
    ensures Strip(s) == s
  {
    assert s == [] + s + [];
    StripUnique([], s, []);
  }

  lemma Regroup(pre: string, a: string, r: string, b: string, post: string)
    ensures pre + (a + r + b) + post == (pre + a) + r + (b + post)
  {
  }

  /** Stripping ignores any further whitespace around the string. */
  lemma StripIgnoresPadding(pre: string, s: string, post: string)
    requires AllSpace(pre) && AllSpace(post)
    ensures Strip(pre + s + post) == Strip(s)
  {
    var r := Strip(s);
    var a, b :| s == a + r + b && AllSpace(a) && AllSpace(b);
    Regroup(pre, a, r, b, post);
    AllSpaceAppend(pre, a);
    AllSpaceAppend(b, post);
    StripUnique(pre + a, r, b + post);
  }

  /** Python's `str.upper()` on one character, restricted to ASCII letters. */
  function UpperChar(c: char): char {
    if 'a' <= c <= 'z' then (c as int - 32) as char else c
  }

  predicate NoLower(s: string) {
    forall i :: 0 <= i < |s| ==> !('a' <= s[i] <= 'z')
  }

  /** Python's `str.upper()`: each lower-case letter becomes the matching
      capital, every other character stays as it is, and an upper-case string
      is its own upper case. */
  function Upper(s: string): (r: string)
    ensures |r| == |s| && NoLower(r)
    ensures forall i :: 0 <= i < |s| ==>
      && ('a' <= s[i] <= 'z' ==> r[i] as int - 'A' as int == s[i] as int - 'a' as int)
      && (!('a' <= s[i] <= 'z') ==> r[i] == s[i])
    ensures forall i :: 0 <= i < |s| ==> (IsSpace(r[i]) <==> IsSpace(s[i]))
    ensures NoLower(s) ==> r == s
  {
    seq(|s|, i requires 0 <= i < |s| => UpperChar(s[i]))
  }

  lemma {:induction false} UpperAppend(a: string, b: string)
    ensures Upper(a + b) == Upper(a) + Upper(b)
  {
    assert |Upper(a + b)| == |Upper(a) + Upper(b)|;
    forall i | 0 <= i < |a + b| ensures Upper(a + b)[i] == (Upper(a) + Upper(b))[i] {
      if i < |a| {
        assert (a + b)[i] == a[i];
      } else {
        assert (a + b)[i] == b[i - |a|];
      }
    }
  }

  /** Upper-casing and stripping commute. */
  lemma UpperStripCommute(s: string)
    ensures Upper(Strip(s)) == Strip(Upper(s))
  {
    var r := Strip(s);
    var a, b :| s == a + r + b && AllSpace(a) && AllSpace(b);
    var ua, ur, ub := Upper(a), Upper(r), Upper(b);
    UpperAppend(a + r, b);
    UpperAppend(a, r);
    assert Upper(s) == ua + ur + ub;
    UpperKeepsSpace(a);
    UpperKeepsSpace(b);
    UpperKeepsStripped(r);
    StripUnique(ua, ur, ub);
  }

  lemma UpperKeepsSpace(s: string)
    requires AllSpace(s)
    ensures AllSpace(Upper(s))
  {
  }

  lemma UpperKeepsStripped(s: string)
    requires Stripped(s)
    ensures Stripped(Upper(s))
  {
    if s != [] {
      assert IsSpace(Upper(s)[0]) == IsSpace(s[0]);
      assert IsSpace(Upper(s)[|s| - 1]) == IsSpace(s[|s| - 1]);
    }
  }

  /** The decimal digit for `d`. */
  function Digit(d: int): (c: char)
    requires 0 <= d < 10
    ensures '0' <= c <= '9' && c as int - '0' as int == d
  {
    ('0' as int + d) as char
  }

  /** Every character is a decimal digit. */
  predicate IsDecimal(s: string) {
    forall i :: 0 <= i < |s| ==> '0' <= s[i] <= '9'
  }

  /** The number a string of decimal digits denotes, most significant digit
      first; the empty string denotes 0. */
  function DecimalValue(s: string): (v: nat)
    requires IsDecimal(s)
    ensures |s| == 1 ==> v == s[0] as int - '0' as int
    decreases |s|
  {
    if s == [] then 0
    else
      var init := s[..|s| - 1];
      assert IsDecimal(init) by {
        forall i | 0 <= i < |init| ensures '0' <= init[i] <= '9' { assert init[i] == s[i]; }
      }
      DecimalValue(init) * 10 + (s[|s| - 1] as int - '0' as int)
  }

  /** Python's decimal numeral for a natural number: digits with no leading
      zero, except "0" itself. */
  predicate Numeral(s: string) {
    s != [] && IsDecimal(s) && (s[0] == '0' ==> |s| == 1)
  }

  function Pow10(k: nat): nat {
    if k == 0 then 1 else 10 * Pow10(k - 1)
  }

  /** The digits of `b` written after those of `a` shift `a` left by `|b|`
      places. */
  lemma {:induction false} DecimalAppend(a: string, b: string)
    requires IsDecimal(a) && IsDecimal(b)
    ensures IsDecimal(a + b)
    ensures DecimalValue(a + b) == DecimalValue(a) * Pow10(|b|) + DecimalValue(b)
    decreases |b|
  {
    assert IsDecimal(a + b) by {
      forall i | 0 <= i < |a + b| ensures '0' <= (a + b)[i] <= '9' {
        if i < |a| { assert (a + b)[i] == a[i]; } else { assert (a + b)[i] == b[i - |a|]; }
      }
    }
    if b == [] {
      assert a + b == a;
    } else {
      var b', d := b[..|b| - 1], b[|b| - 1] as int - '0' as int;
      assert IsDecimal(b') by {
        forall i | 0 <= i < |b'| ensures '0' <= b'[i] <= '9' { assert b'[i] == b[i]; }
      }
      assert (a + b)[..|a + b| - 1] == a + b';
      assert (a + b)[|a + b| - 1] == b[|b| - 1];
      DecimalAppend(a, b');
      assert DecimalValue(a + b) == DecimalValue(a + b') * 10 + d;
      assert DecimalValue(b) == DecimalValue(b') * 10 + d;
      ShiftDigit(DecimalValue(a), Pow10(|b'|), DecimalValue(b'), d);
    }
  }

  lemma ShiftDigit(va: int, p: int, vb: int, d: int)
    ensures (va * p + vb) * 10 + d == va * (10 * p) + (vb * 10 + d)
  {
  }

  /** `n` in two decimal digits, zero-padded. */
  function Pad2(n: int): (r: string)
    requires 0 <= n < 100
    ensures |r| == 2 && IsDecimal(r)
  {
    [Digit(n / 10), Digit(n % 10)]
  }

  /** `n` in four decimal digits, zero-padded. */
  function Pad4(n: int): (r: string)
    requires 0 <= n < 10000
    ensures |r| == 4 && IsDecimal(r)
  {
    Pad2(n / 100) + Pad2(n % 100)
  }

  /** The two digits of `Pad2(n)` denote `n`. */
  lemma Pad2Value(n: int)
    requires 0 <= n < 100
    ensures DecimalValue(Pad2(n)) == n
  {
    var r := Pad2(n);
    assert r[..1] == [Digit(n / 10)];
    assert DecimalValue(r) == DecimalValue(r[..1]) * 10 + n % 10;
  }

  /** The four digits of `Pad4(n)` denote `n`. */
  lemma Pad4Value(n: int)
    requires 0 <= n < 10000
    ensures DecimalValue(Pad4(n)) == n
  {
    DecimalAppend(Pad2(n / 100), Pad2(n % 100));
    Pad2Value(n / 100);
    Pad2Value(n % 100);
    assert Pow10(2) == 100;
  }

  /** Python's `str(n)` for a natural number: a numeral, whose first digit
      is not 0 when `n` is positive. */
  function NatString(n: nat): (r: string)
    ensures Numeral(r)
    ensures n > 0 ==> r[0] != '0'
  {
    if n < 10 then [Digit(n)] else NatString(n / 10) + [Digit(n % 10)]
  }

  /** The digits of `NatString(n)` denote `n`. */
  lemma {:induction false} NatStringValue(n: nat)
    ensures DecimalValue(NatString(n)) == n
  {
    if n >= 10 {
      var r := NatString(n);
      assert r[..|r| - 1] == NatString(n / 10);
      NatStringValue(n / 10);
    }
  }

  /** Python's `str(n)` for an integer: the numeral of its magnitude, after
      a minus sign when it is negative. */
  function IntString(n: int): (r: string)
    ensures n < 0 ==> |r| >= 2 && r[0] == '-' && Numeral(r[1..]) && DecimalValue(r[1..]) == -n
    ensures n >= 0 ==> Numeral(r) && DecimalValue(r) == n
  {
    if n < 0 then
      NatStringValue(-n);
      assert ("-" + NatString(-n))[1..] == NatString(-n);
      "-" + NatString(-n)
    else
      NatStringValue(n);
      NatString(n)
  }
}

=== FILE: summary.dfy ===
/** The summarizer: totals by transaction type, by category and by calendar
    period, over a cleaned frame. Amounts are exact integers here. */
module Summary {
  import opened Table
  import opened Strings
  import opened Aggregate

  /** What `sum()` adds for one `amount` cell: a number is added and a null
      is skipped. */
  function AmountOf(c: Cell): (a: int)
    ensures c.Number? ==> a == c.n
    ensures !c.Number? ==> a == 0
  {
    if c.Number? then c.n else 0
  }

  /** Each row as a bucket keyed by its cell in column `col`, holding the
      row's amount. */
  function Entries(rows: seq<Row>, col: string): (r: seq<Bucket<Cell>>)
    ensures |r| == |rows|
    ensures forall i :: 0 <= i < |rows| ==>
      r[i].key == Get(rows[i], col) && r[i].amount == AmountOf(Get(rows[i], "amount"))
  {
    if rows == [] then []
    else [Bucket(Get(rows[0], col), AmountOf(Get(rows[0], "amount")))] + Entries(rows[1..], col)
  }

  lemma {:induction false} EntriesAppend(a: seq<Row>, b: seq<Row>, col: string)
    ensures Entries(a + b, col) == Entries(a, col) + Entries(b, col)
  {
    if a == [] {
      assert a + b == b;
    } else {
      assert (a + b)[0] == a[0] && (a + b)[1..] == a[1..] + b;
      EntriesAppend(a[1..], b, col);
    }
  }

  /** Some row holds `k` in column `col`. */
  predicate HasCell(rows: seq<Row>, col: string, k: Cell) {
    exists x :: x in rows && Get(x, col) == k
  }

  /** The keys of the entries are exactly the cells the rows hold in `col`. */
  lemma EntriesKeys(rows: seq<Row>, col: string)
    ensures forall k :: k in KeySet(Entries(rows, col)) <==> HasCell(rows, col, k)
  {
    var e := Entries(rows, col);
    forall k ensures k in KeySet(e) <==> HasCell(rows, col, k) {
      if k in KeySet(e) {
        var b :| b in e && b.key == k;
        var i :| 0 <= i < |e| && e[i] == b;
        assert rows[i] in rows;
      }
      if HasCell(rows, col, k) {
        var x :| x in rows && Get(x, col) == k;
        var i :| 0 <= i < |rows| && rows[i] == x;
        assert e[i] in e;
      }
    }
  }

  /** The total `amount` of the rows whose `type` is exactly `t`: 0 when no
      row has that type. */
  function TypeTotal(rows: seq<Row>, t: string): (total: int)
    ensures (forall x :: x in rows ==> Get(x, "type") != Text(t)) ==> total == 0
  {
    EntriesKeys(rows, "type");
    assert (forall x :: x in rows ==> Get(x, "type") != Text(t)) ==> !HasCell(rows, "type", Text(t));
    assert !HasCell(rows, "type", Text(t)) ==> SumOf(Entries(rows, "type"), Text(t)) == 0 by {
      if !HasCell(rows, "type", Text(t)) {
        SumOfAbsent(Entries(rows, "type"), Text(t));
      }
    }
    SumOf(Entries(rows, "type"), Text(t))
  }

  lemma TypeTotalAppend(a: seq<Row>, b: seq<Row>, t: string)
    ensures TypeTotal(a + b, t) == TypeTotal(a, t) + TypeTotal(b, t)
  {
    EntriesAppend(a, b, "type");
    SumOfAppend(Entries(a, "type"), Entries(b, "type"), Text(t));
  }

  /** One labelled line of the income/expense summary. */
  datatype LabelTotal = LabelTotal(name: string, total: int)

  /** `compute_income_expense_summary`: fails on a missing `amount`, then on
      a missing `type`; otherwise the INCOME, EXPENSE and NET lines, with
      NET the income minus the expenses. */
  function IncomeExpenseSummary(f: Frame): (r: Result<seq<LabelTotal>>)
    ensures r.Err? <==> "amount" !in f.columns || "type" !in f.columns
    ensures "amount" !in f.columns ==> r == Err(KeyError(["amount"]))
    ensures "amount" in f.columns && "type" !in f.columns ==> r == Err(KeyError(["type"]))
    ensures r.Ok? ==>
      && |r.value| == 3
      && r.value[0].name == "INCOME" && r.value[1].name == "EXPENSE" && r.value[2].name == "NET"
      && r.value[2].total == r.value[0].total - r.value[1].total
  {
    if "amount" !in f.columns then Err(KeyError(["amount"]))
    else if "type" !in f.columns then Err(KeyError(["type"]))
    else
      var income := TypeTotal(f.rows, "INCOME");
      var expense := TypeTotal(f.rows, "EXPENSE");
      Ok([LabelTotal("INCOME", income), LabelTotal("EXPENSE", expense), LabelTotal("NET", income - expense)])
  }

  /** The summary of one row: its amount counts as income when its type is
      exactly INCOME, as an expense when it is exactly EXPENSE, and not at
      all otherwise. */
  lemma IncomeExpenseOfRow(columns: set<string>, x: Row)
    requires "amount" in columns && "type" in columns
    ensures var s := IncomeExpenseSummary(Frame(columns, [x])).value;
      && s[0].total == (if Get(x, "type") == Text("INCOME") then AmountOf(Get(x, "amount")) else 0)
      && s[1].total == (if Get(x, "type") == Text("EXPENSE") then AmountOf(Get(x, "amount")) else 0)
  {
    assert Entries([x], "type") == [Bucket(Get(x, "type"), AmountOf(Get(x, "amount")))];
    Singleton(Bucket(Get(x, "type"), AmountOf(Get(x, "amount"))), Text("INCOME"));
    Singleton(Bucket(Get(x, "type"), AmountOf(Get(x, "amount"))), Text("EXPENSE"));
  }

  /** The summary of a concatenation is the line-by-line sum of the
      summaries of its parts (with the previous lemma, this determines the
      summary of any frame). */
  lemma IncomeExpenseAdditive(columns: set<string>, a: seq<Row>, b: seq<Row>)
    requires "amount" in columns && "type" in columns
    ensures var sa := IncomeExpenseSummary(Frame(columns, a)).value;
      var sb := IncomeExpenseSummary(Frame(columns, b)).value;
      var sab := IncomeExpenseSummary(Frame(columns, a + b)).value;
      forall i :: 0 <= i < 3 ==> sab[i].total == sa[i].total + sb[i].total
  {
    TypeTotalAppend(a, b, "INCOME");
    TypeTotalAppend(a, b, "EXPENSE");
  }

  /** A row whose type is neither INCOME nor EXPENSE (a null, a transfer, a
      lower-case "income") changes nothing in the summary. */
  lemma IncomeExpenseIgnoresOtherTypes(columns: set<string>, a: seq<Row>, x: Row, b: seq<Row>)
    requires "amount" in columns && "type" in columns
    requires Get(x, "type") != Text("INCOME") && Get(x, "type") != Text("EXPENSE")
    ensures IncomeExpenseSummary(Frame(columns, a + [x] + b)) == IncomeExpenseSummary(Frame(columns, a + b))
  {
    TypeTotalSkips(a, x, b, "INCOME");
    TypeTotalSkips(a, x, b, "EXPENSE");
  }

  lemma TypeTotalSkips(a: seq<Row>, x: Row, b: seq<Row>, t: string)
    requires Get(x, "type") != Text(t)
    ensures TypeTotal(a + [x] + b, t) == TypeTotal(a + b, t)
  {
    TypeTotalAppend(a + [x], b, t);
    TypeTotalAppend(a, [x], t);
    TypeTotalAppend(a, b, t);
    assert TypeTotal([x], t) == 0;
  }

  /** Whether the type filter of `summary_by_category` keeps row `r`: only a
      frame with a `type` column filters, and then it drops the INCOME rows
      unless income is included and the EXPENSE rows unless expenses are. */
  predicate Kept(r: Row, hasType: bool, includeIncome: bool, includeExpense: bool)
    ensures !hasType || (includeIncome && includeExpense) ==> Kept(r, hasType, includeIncome, includeExpense)
    ensures Get(r, "type") != Text("INCOME") && Get(r, "type") != Text("EXPENSE") ==> Kept(r, hasType, includeIncome, includeExpense)
  {
    !(hasType && ((!includeIncome && Get(r, "type") == Text("INCOME"))
               || (!includeExpense && Get(r, "type") == Text("EXPENSE"))))
  }

  /** The type filter: every kept row as often as in the input, and no
      other row. */
  function FilterByType(rows: seq<Row>, hasType: bool, includeIncome: bool, includeExpense: bool): (r: seq<Row>)
    ensures forall x :: multiset(r)[x] == if Kept(x, hasType, includeIncome, includeExpense) then multiset(rows)[x] else 0
  {
    if rows == [] then []
    else
      var rest := FilterByType(rows[1..], hasType, includeIncome, includeExpense);
      assert rows == [rows[0]] + rows[1..];
      if Kept(rows[0], hasType, includeIncome, includeExpense) then [rows[0]] + rest else rest
  }

  lemma FilterCons(x: Row, rest: seq<Row>, includeIncome: bool, includeExpense: bool)
    ensures FilterByType([x] + rest, true, includeIncome, includeExpense)
      == (if Kept(x, true, includeIncome, includeExpense) then [x] else []) + FilterByType(rest, true, includeIncome, includeExpense)
  {
    assert ([x] + rest)[1..] == rest;
  }

  /** With both kinds included, or without a `type` column, nothing is
      filtered out. */
  lemma {:induction false} FilterKeepsAll(rows: seq<Row>, hasType: bool, includeIncome: bool, includeExpense: bool)
    requires !hasType || (includeIncome && includeExpense)
    ensures FilterByType(rows, hasType, includeIncome, includeExpense) == rows
  {
    if rows != [] {
      FilterKeepsAll(rows[1..], hasType, includeIncome, includeExpense);
      assert rows == [rows[0]] + rows[1..];
    }
  }

  /** `summary_by_category`: fails on a missing `category`, then on a missing
      `amount`; otherwise one line per category of the filtered rows (a null
      category is a category of its own), holding that category's total,
      with the totals in non-increasing order. */
  function SummaryByCategory(f: Frame, includeIncome: bool, includeExpense: bool): (r: Result<seq<Bucket<Cell>>>)
    ensures r.Err? <==> "category" !in f.columns || "amount" !in f.columns
    ensures "category" !in f.columns ==> r == Err(KeyError(["category"]))
    ensures "category" in f.columns && "amount" !in f.columns ==> r == Err(KeyError(["amount"]))
    ensures r.Ok? ==> NonIncreasing(r.value) && DistinctKeys(r.value)
    ensures r.Ok? ==>
      var entries := Entries(FilterByType(f.rows, "type" in f.columns, includeIncome, includeExpense), "category");
      && KeySet(r.value) == KeySet(entries)
      && forall b :: b in r.value ==> b.amount == SumOf(entries, b.key)
  {
    if "category" !in f.columns then Err(KeyError(["category"]))
    else if "amount" !in f.columns then Err(KeyError(["amount"]))
    else
      var filtered := FilterByType(f.rows, "type" in f.columns, includeIncome, includeExpense);
      var grouped := Group(Entries(filtered, "category"));
      var sorted := SortDescending(grouped);
      SortKeepsKeysDistinct(grouped);
      KeySetOfPermutation(sorted, grouped);
      assert forall b :: b in sorted ==> b in grouped by {
        forall b | b in sorted ensures b in grouped {
          assert b in multiset(sorted);
        }
      }
      Ok(sorted)
  }

  /** The category totals add up to the total amount of the filtered rows. */
  lemma CategoryTotal(f: Frame, includeIncome: bool, includeExpense: bool)
    requires SummaryByCategory(f, includeIncome, includeExpense).Ok?
    ensures Total(SummaryByCategory(f, includeIncome, includeExpense).value)
      == Total(Entries(FilterByType(f.rows, "type" in f.columns, includeIncome, includeExpense), "category"))
  {
    var entries := Entries(FilterByType(f.rows, "type" in f.columns, includeIncome, includeExpense), "category");
    GroupPreservesTotal(entries);
    TotalPermutation(SortDescending(Group(entries)), Group(entries));
  }

  /** Over rows typed INCOME or EXPENSE, the filtered rows' total is the
      income total when income is included plus the expense total when
      expenses are. */
  lemma {:induction false} FilteredTotal(rows: seq<Row>, includeIncome: bool, includeExpense: bool)
    requires forall x :: x in rows ==> Get(x, "type") == Text("INCOME") || Get(x, "type") == Text("EXPENSE")
    ensures Total(Entries(FilterByType(rows, true, includeIncome, includeExpense), "category"))
      == (if includeIncome then TypeTotal(rows, "INCOME") else 0) + (if includeExpense then TypeTotal(rows, "EXPENSE") else 0)
  {
    if rows != [] {
      var x, rest := rows[0], rows[1..];
      assert rows == [x] + rest;
      assert x in rows;
      assert forall y :: y in rest ==> y in rows;
      FilteredTotal(rest, includeIncome, includeExpense);
      FilteredTotalStep(x, rest, includeIncome, includeExpense);
      FilteredTotalOfRow(x, includeIncome, includeExpense);
      TypeTotalAppend([x], rest, "INCOME");
      TypeTotalAppend([x], rest, "EXPENSE");
    }
  }

  lemma FilteredTotalStep(x: Row, rest: seq<Row>, includeIncome: bool, includeExpense: bool)
    ensures var kept := if Kept(x, true, includeIncome, includeExpense) then [x] else [];
      Total(Entries(FilterByType([x] + rest, true, includeIncome, includeExpense), "category"))
        == Total(Entries(kept, "category")) + Total(Entries(FilterByType(rest, true, includeIncome, includeExpense), "category"))
  {
    var kept := if Kept(x, true, includeIncome, includeExpense) then [x] else [];
    var tail := FilterByType(rest, true, includeIncome, includeExpense);
    FilterCons(x, rest, includeIncome, includeExpense);
    EntriesAppend(kept, tail, "category");
    TotalAppend(Entries(kept, "category"), Entries(tail, "category"));
  }

  lemma FilteredTotalOfRow(x: Row, includeIncome: bool, includeExpense: bool)
    requires Get(x, "type") == Text("INCOME") || Get(x, "type") == Text("EXPENSE")
    ensures var kept := if Kept(x, true, includeIncome, includeExpense) then [x] else [];
      Total(Entries(kept, "category"))
        == (if includeIncome then TypeTotal([x], "INCOME") else 0) + (if includeExpense then TypeTotal([x], "EXPENSE") else 0)
  {
    assert Entries([x], "type") == [Bucket(Get(x, "type"), AmountOf(Get(x, "amount")))];
    assert Entries([x], "category") == [Bucket(Get(x, "category"), AmountOf(Get(x, "amount")))];
    assert Entries([], "category") == [];
    Singleton(Bucket(Get(x, "type"), AmountOf(Get(x, "amount"))), Text("INCOME"));
    Singleton(Bucket(Get(x, "type"), AmountOf(Get(x, "amount"))), Text("EXPENSE"));
    Singleton(Bucket(Get(x, "category"), AmountOf(Get(x, "amount"))), Get(x, "category"));
  }

  /** The category view agrees with the income/expense summary: when every
      row is typed INCOME or EXPENSE, the category totals add up to the
      income total (if included) plus the expense total (if included). */
  lemma CategoryTotalMatchesSummary(f: Frame, includeIncome: bool, includeExpense: bool)
    requires "category" in f.columns && "amount" in f.columns && "type" in f.columns
    requires forall x :: x in f.rows ==> Get(x, "type") == Text("INCOME") || Get(x, "type") == Text("EXPENSE")
    ensures var s := IncomeExpenseSummary(f).value;
      Total(SummaryByCategory(f, includeIncome, includeExpense).value)
        == (if includeIncome then s[0].total else 0) + (if includeExpense then s[1].total else 0)
  {
    CategoryTotal(f, includeIncome, includeExpense);
    FilteredTotal(f.rows, includeIncome, includeExpense);
  }

  /** The calendar period `to_period` groups by: "M", "Q" or "Y". */
  datatype Granularity = Month | Quarter | Year

  /** No `date` cell is raw text or a bare number: the column is a datetime
      column, possibly with nulls. */
  predicate DatesParsed(rows: seq<Row>)
    ensures DatesParsed(rows) <==>
      forall i :: 0 <= i < |rows| ==> Get(rows[i], "date").When? || Get(rows[i], "date").Missing?
  {
    assert forall i :: 0 <= i < |rows| ==> rows[i] in rows;
    forall x :: x in rows ==> !Get(x, "date").Text? && !Get(x, "date").Number?
  }

  /** `dt.to_period(g).astype(str)` of one date cell: "2024-01", "2024Q1" or
      "2024" (lemma PeriodLabelFormat); a null date gives "NaT", which no
      date's label equals. */
  function PeriodLabel(c: Cell, g: Granularity): (s: string)
    requires !c.Text? && !c.Number?
    ensures s == "NaT" <==> c.Missing?
  {
    match c
    case When(d) =>
      (match g
       case Month => Pad4(d.year) + "-" + Pad2(d.month)
       case Quarter => Pad4(d.year) + "Q" + [Digit((d.month - 1) / 3 + 1)]
       case Year => Pad4(d.year))
    case _ => "NaT"
  }

  /** A date's label is its year in four digits, then "-" and the month in
      two digits, or "Q" and the quarter, or nothing. */
  lemma PeriodLabelFormat(d: Date, g: Granularity)
    ensures var s := PeriodLabel(When(d), g);
      && |s| >= 4 && IsDecimal(s[..4]) && DecimalValue(s[..4]) == d.year
      && (g == Month ==> |s| == 7 && s[4] == '-' && IsDecimal(s[5..]) && DecimalValue(s[5..]) == d.month)
      && (g == Quarter ==> |s| == 6 && s[4] == 'Q' && IsDecimal(s[5..]) && DecimalValue(s[5..]) == (d.month - 1) / 3 + 1)
      && (g == Year ==> |s| == 4)
  {
    var y := Pad4(d.year);
    Pad4Value(d.year);
    match g
    case Month =>
      var m := Pad2(d.month);
      Pad2Value(d.month);
      assert (y + "-" + m)[..4] == y && (y + "-" + m)[5..] == m;
    case Quarter =>
      var q := [Digit((d.month - 1) / 3 + 1)];
      assert (y + "Q" + q)[..4] == y && (y + "Q" + q)[5..] == q;
    case Year =>
      assert y[..4] == y;
  }

  /** Two dates fall in the same period. */
  predicate SamePeriod(d1: Date, d2: Date, g: Granularity) {
    d1.year == d2.year &&
    match g
    case Month => d1.month == d2.month
    case Quarter => (d1.month - 1) / 3 == (d2.month - 1) / 3
    case Year => true
  }

  /** Two dates get the same label exactly when they fall in the same period. */
  lemma PeriodLabelIdentifiesPeriod(d1: Date, d2: Date, g: Granularity)
    ensures PeriodLabel(When(d1), g) == PeriodLabel(When(d2), g) <==> SamePeriod(d1, d2, g)
  {
    if SamePeriod(d1, d2, g) {
      SamePeriodSameLabel(d1, d2, g);
    }
    if PeriodLabel(When(d1), g) == PeriodLabel(When(d2), g) {
      SameLabelSamePeriod(d1, d2, g);
    }
  }

  lemma SamePeriodSameLabel(d1: Date, d2: Date, g: Granularity)
    requires SamePeriod(d1, d2, g)
    ensures PeriodLabel(When(d1), g) == PeriodLabel(When(d2), g)
  {
  }

  lemma SameLabelSamePeriod(d1: Date, d2: Date, g: Granularity)
    requires PeriodLabel(When(d1), g) == PeriodLabel(When(d2), g)
    ensures SamePeriod(d1, d2, g)
  {
    var l1, l2 := PeriodLabel(When(d1), g), PeriodLabel(When(d2), g);
    PeriodLabelFormat(d1, g);
    PeriodLabelFormat(d2, g);
    assert l1[..4] == l2[..4];
    if g != Year {
      assert l1[5..] == l2[5..];
    }
  }

  /** The period entries of the rows of type `t`: each such row as a bucket
      keyed by its period label, holding its amount. */
  function PeriodEntries(rows: seq<Row>, t: string, g: Granularity): (r: seq<Bucket<string>>)
    requires DatesParsed(rows)
    ensures |r| <= |rows|
    ensures (forall x :: x in rows ==> Get(x, "type") != Text(t)) ==> r == []
  {
    if rows == [] then []
    else
      assert rows[0] in rows;
      assert forall x :: x in rows[1..] ==> x in rows;
      var rest := PeriodEntries(rows[1..], t, g);
      if Get(rows[0], "type") == Text(t)
      then [Bucket(PeriodLabel(Get(rows[0], "date"), g), AmountOf(Get(rows[0], "amount")))] + rest
      else rest
  }

  /** A single row gives one entry, its period label and amount, when it is
      of type `t`, and none otherwise. */
  lemma PeriodEntriesOfRow(x: Row, t: string, g: Granularity)
    requires DatesParsed([x])
    ensures PeriodEntries([x], t, g)
      == if Get(x, "type") == Text(t) then [Bucket(PeriodLabel(Get(x, "date"), g), AmountOf(Get(x, "amount")))] else []
  {
    assert [x][1..] == [];
  }

  /** The entries of a concatenation are the entries of its parts, in order
      (with the previous lemma, this determines the entries of any rows). */
  lemma {:induction false} PeriodEntriesAppend(a: seq<Row>, b: seq<Row>, t: string, g: Granularity)
    requires DatesParsed(a + b)
    ensures DatesParsed(a) && DatesParsed(b)
    ensures PeriodEntries(a + b, t, g) == PeriodEntries(a, t, g) + PeriodEntries(b, t, g)
    decreases |a|
  {
    DatesParsedParts(a, b);
    if a == [] {
      EmptyAppend(a, b);
      EmptyAppend(PeriodEntries(a, t, g), PeriodEntries(b, t, g));
    } else {
      PeriodEntriesAppend(a[1..], b, t, g);
      PeriodEntriesAppendStep(a, b, t, g);
    }
  }

  lemma PeriodEntriesAppendStep(a: seq<Row>, b: seq<Row>, t: string, g: Granularity)
    requires a != [] && DatesParsed(a + b) && DatesParsed(a) && DatesParsed(b) && DatesParsed(a[1..] + b)
    requires DatesParsed(a[1..])
    requires PeriodEntries(a[1..] + b, t, g) == PeriodEntries(a[1..], t, g) + PeriodEntries(b, t, g)
    ensures PeriodEntries(a + b, t, g) == PeriodEntries(a, t, g) + PeriodEntries(b, t, g)
  {
    var ab := a + b;
    TailOfAppend(a, b);
    PeriodEntriesStep(ab, t, g);
    PeriodEntriesStep(a, t, g);
    RegroupEntries(PeriodEntries(ab, t, g), PeriodEntries(a, t, g), RowEntry(a[0], t, g),
            PeriodEntries(ab[1..], t, g), PeriodEntries(a[1..], t, g), PeriodEntries(b, t, g));
  }

  lemma EmptyAppend<T>(a: seq<T>, b: seq<T>)
    requires a == []
    ensures a + b == b
  {
  }

  lemma TailOfAppend<T>(a: seq<T>, b: seq<T>)
    requires a != []
    ensures (a + b)[0] == a[0] && (a + b)[1..] == a[1..] + b
  {
  }

  lemma RegroupEntries<T>(whole: seq<T>, left: seq<T>, h: seq<T>, rest: seq<T>, x: seq<T>, y: seq<T>)
    requires whole == h + rest && rest == x + y && left == h + x
    ensures whole == left + y
  {
  }

  /** The entry of one row: its period label and amount when it is of type
      `t`, nothing otherwise. */
  function RowEntry(x: Row, t: string, g: Granularity): seq<Bucket<string>>
    requires !Get(x, "date").Text? && !Get(x, "date").Number?
  {
    if Get(x, "type") == Text(t) then [Bucket(PeriodLabel(Get(x, "date"), g), AmountOf(Get(x, "amount")))] else []
  }

  lemma PeriodEntriesStep(rows: seq<Row>, t: string, g: Granularity)
    requires rows != [] && DatesParsed(rows)
    ensures !Get(rows[0], "date").Text? && !Get(rows[0], "date").Number?
    ensures DatesParsed(rows[1..])
    ensures PeriodEntries(rows, t, g) == RowEntry(rows[0], t, g) + PeriodEntries(rows[1..], t, g)
  {
    assert rows[0] in rows;
    assert forall x :: x in rows[1..] ==> x in rows;
  }

  lemma DatesParsedParts(a: seq<Row>, b: seq<Row>)
    requires DatesParsed(a + b)
    ensures DatesParsed(a) && DatesParsed(b)
    ensures a != [] ==> DatesParsed(a[1..] + b)
  {
    assert forall i :: 0 <= i < |a| ==> a[i] == (a + b)[i];
    assert forall i :: 0 <= i < |b| ==> b[i] == (a + b)[|a| + i];
    if a != [] {
      assert a[1..] + b == (a + b)[1..];
      assert forall i :: 0 <= i < |a| + |b| - 1 ==> (a + b)[1..][i] == (a + b)[i + 1];
    }
  }

  /** The period entries of type `t` add up to the total of type `t`. */
  lemma {:induction false} PeriodEntriesTotal(rows: seq<Row>, t: string, g: Granularity)
    requires DatesParsed(rows)
    ensures Total(PeriodEntries(rows, t, g)) == TypeTotal(rows, t)
  {
    if rows != [] {
      PeriodEntriesTotal(rows[1..], t, g);
    }
  }

  /** Some row of type `t` falls in period `p`. */
  predicate HasPeriod(rows: seq<Row>, t: string, g: Granularity, p: string)
    requires DatesParsed(rows)
  {
    exists x :: x in rows && Get(x, "type") == Text(t) && PeriodLabel(Get(x, "date"), g) == p
  }

  /** The periods of the entries of type `t` are exactly the labels of the
      rows of type `t`. */
  lemma {:induction false} PeriodEntriesKeys(rows: seq<Row>, t: string, g: Granularity)
    requires DatesParsed(rows)
    ensures forall p :: p in KeySet(PeriodEntries(rows, t, g)) <==> HasPeriod(rows, t, g, p)
  {
    if rows != [] {
      var x, rest := rows[0], rows[1..];
      PeriodEntriesKeys(rest, t, g);
      assert rows == [x] + rest;
      var tail := PeriodEntries(rest, t, g);
      if Get(x, "type") == Text(t) {
        var head := Bucket(PeriodLabel(Get(x, "date"), g), AmountOf(Get(x, "amount")));
        KeySetAppend([head], tail);
        assert KeySet([head]) == {head.key};
      }
      HasPeriodCons(rows, t, g);
    }
  }

  lemma HasPeriodCons(rows: seq<Row>, t: string, g: Granularity)
    requires rows != [] && DatesParsed(rows)
    ensures DatesParsed(rows[1..])
    ensures forall p :: (HasPeriod(rows, t, g, p)
      <==> (Get(rows[0], "type") == Text(t) && PeriodLabel(Get(rows[0], "date"), g) == p) || HasPeriod(rows[1..], t, g, p))
  {
    var x, rest := rows[0], rows[1..];
    assert x in rows;
    assert forall y :: y in rest ==> y in rows;
    forall p ensures HasPeriod(rows, t, g, p)
      <==> (Get(x, "type") == Text(t) && PeriodLabel(Get(x, "date"), g) == p) || HasPeriod(rest, t, g, p)
    {
      if HasPeriod(rows, t, g, p) {
        var y :| y in rows && Get(y, "type") == Text(t) && PeriodLabel(Get(y, "date"), g) == p;
        if y != x {
          assert y in rest;
        }
      }
    }
  }

  /** One line of the periodic summary. */
  datatype PeriodRow = PeriodRow(period: string, income: int, expense: int, net: int)

  /** The outer join of the income and expense groups on the periods `ps`,
      a period missing on one side counting 0 there. */
  function CombineRows(income: seq<Bucket<string>>, expense: seq<Bucket<string>>, ps: seq<string>): (r: seq<PeriodRow>)
    ensures |r| == |ps|
    ensures forall i :: 0 <= i < |r| ==>
      && r[i].period == ps[i]
      && r[i].income == Lookup(income, ps[i]) && r[i].expense == Lookup(expense, ps[i])
      && r[i].net == r[i].income - r[i].expense
  {
    if ps == [] then []
    else
      var p := ps[0];
      [PeriodRow(p, Lookup(income, p), Lookup(expense, p), Lookup(income, p) - Lookup(expense, p))]
        + CombineRows(income, expense, ps[1..])
  }

  /** The periods of the summary lines. */
  function Periods(rs: seq<PeriodRow>): set<string> {
    set x | x in rs :: x.period
  }

  /** `summary_by_month`: fails on a missing `date`, `amount` or `type`
      column (in that order), then on a `date` column that is not a datetime
      column; otherwise one line per distinct period that has INCOME or
      EXPENSE rows, holding that period's income total, expense total, and
      their difference. */
  function SummaryByMonth(f: Frame, g: Granularity): (r: Result<seq<PeriodRow>>)
    ensures r.Err? <==> "date" !in f.columns || "amount" !in f.columns || "type" !in f.columns || !DatesParsed(f.rows)
    ensures "date" !in f.columns ==> r == Err(KeyError(["date"]))
    ensures "date" in f.columns && "amount" !in f.columns ==> r == Err(KeyError(["amount"]))
    ensures "date" in f.columns && "amount" in f.columns && "type" !in f.columns ==> r == Err(KeyError(["type"]))
    ensures r.Err? && r.error.NotDatetime? <==> r.Err? && "date" in f.columns && "amount" in f.columns && "type" in f.columns
    ensures r.Ok? ==> forall i, j :: 0 <= i < j < |r.value| ==> r.value[i].period != r.value[j].period
    ensures r.Ok? ==>
      var income := PeriodEntries(f.rows, "INCOME", g);
      var expense := PeriodEntries(f.rows, "EXPENSE", g);
      && Periods(r.value) == KeySet(income) + KeySet(expense)
      && (forall i :: 0 <= i < |r.value| ==>
            r.value[i].income == SumOf(income, r.value[i].period)
            && r.value[i].expense == SumOf(expense, r.value[i].period)
            && r.value[i].net == r.value[i].income - r.value[i].expense)
  {
    if "date" !in f.columns then Err(KeyError(["date"]))
    else if "amount" !in f.columns then Err(KeyError(["amount"]))
    else if "type" !in f.columns then Err(KeyError(["type"]))
    else if !DatesParsed(f.rows) then Err(NotDatetime)
    else
      var income := PeriodEntries(f.rows, "INCOME", g);
      var expense := PeriodEntries(f.rows, "EXPENSE", g);
      MonthRows(income, expense);
      Ok(CombineRows(Group(income), Group(expense), Keys(income + expense)))
  }

  /** The outer join over every period of either side: one line per period,
      no period twice, each with its two sums and their difference. */
  lemma MonthRows(income: seq<Bucket<string>>, expense: seq<Bucket<string>>)
    ensures var rows := CombineRows(Group(income), Group(expense), Keys(income + expense));
      && (forall i, j :: 0 <= i < j < |rows| ==> rows[i].period != rows[j].period)
      && Periods(rows) == KeySet(income) + KeySet(expense)
      && (forall i :: 0 <= i < |rows| ==>
            rows[i].income == SumOf(income, rows[i].period)
            && rows[i].expense == SumOf(expense, rows[i].period)
            && rows[i].net == rows[i].income - rows[i].expense)
  {
    var ps := Keys(income + expense);
    var rows := CombineRows(Group(income), Group(expense), ps);
    MonthPeriodsDistinct(Group(income), Group(expense), ps);
    MonthPeriodSet(Group(income), Group(expense), ps);
    KeySetAppend(income, expense);
    MonthSums(income, expense, ps);
  }

  lemma MonthPeriodsDistinct(income: seq<Bucket<string>>, expense: seq<Bucket<string>>, ps: seq<string>)
    requires Distinct(ps)
    ensures var rows := CombineRows(income, expense, ps);
      forall i, j :: 0 <= i < j < |rows| ==> rows[i].period != rows[j].period
  {
  }

  lemma MonthPeriodSet(income: seq<Bucket<string>>, expense: seq<Bucket<string>>, ps: seq<string>)
    ensures Periods(CombineRows(income, expense, ps)) == set p | p in ps
  {
    var rows := CombineRows(income, expense, ps);
    forall p | p in ps ensures p in Periods(rows) {
      var i :| 0 <= i < |ps| && ps[i] == p;
      assert rows[i] in rows;
    }
  }

  lemma MonthSums(income: seq<Bucket<string>>, expense: seq<Bucket<string>>, ps: seq<string>)
    ensures var rows := CombineRows(Group(income), Group(expense), ps);
      forall i :: 0 <= i < |rows| ==>
        rows[i].income == SumOf(income, rows[i].period)
        && rows[i].expense == SumOf(expense, rows[i].period)
        && rows[i].net == rows[i].income - rows[i].expense
  {
    LookupGroupAll(income);
    LookupGroupAll(expense);
  }

  /** A period without EXPENSE rows has expense 0 and net equal to its
      income, and one without INCOME rows has income 0. */
  lemma OneSidedPeriod(f: Frame, g: Granularity, i: nat)
    requires SummaryByMonth(f, g).Ok? && i < |SummaryByMonth(f, g).value|
    ensures var x := SummaryByMonth(f, g).value[i];
      && (x.period !in KeySet(PeriodEntries(f.rows, "EXPENSE", g)) ==> x.expense == 0 && x.net == x.income)
      && (x.period !in KeySet(PeriodEntries(f.rows, "INCOME", g)) ==> x.income == 0)
  {
    var x := SummaryByMonth(f, g).value[i];
    if x.period !in KeySet(PeriodEntries(f.rows, "EXPENSE", g)) {
      SumOfAbsent(PeriodEntries(f.rows, "EXPENSE", g), x.period);
    }
    if x.period !in KeySet(PeriodEntries(f.rows, "INCOME", g)) {
      SumOfAbsent(PeriodEntries(f.rows, "INCOME", g), x.period);
    }
  }

  function IncomeColumnTotal(rs: seq<PeriodRow>): int {
    if rs == [] then 0 else rs[0].income + IncomeColumnTotal(rs[1..])
  }

  function ExpenseColumnTotal(rs: seq<PeriodRow>): int {
    if rs == [] then 0 else rs[0].expense + ExpenseColumnTotal(rs[1..])
  }

  lemma {:induction false} CombineColumnTotals(income: seq<Bucket<string>>, expense: seq<Bucket<string>>, ps: seq<string>)
    ensures IncomeColumnTotal(CombineRows(Group(income), Group(expense), ps)) == Total(Sums(income, ps))
    ensures ExpenseColumnTotal(CombineRows(Group(income), Group(expense), ps)) == Total(Sums(expense, ps))
  {
    if ps != [] {
      CombineColumnTotals(income, expense, ps[1..]);
      LookupGroup(income, ps[0]);
      LookupGroup(expense, ps[0]);
    }
  }

  /** The periodic view agrees with the income/expense summary: its income
      column adds up to the INCOME total and its expense column to the
      EXPENSE total. */
  lemma PeriodTotalsMatchSummary(f: Frame, g: Granularity)
    requires SummaryByMonth(f, g).Ok?
    ensures var s := IncomeExpenseSummary(f).value;
      var m := SummaryByMonth(f, g).value;
      IncomeColumnTotal(m) == s[0].total && ExpenseColumnTotal(m) == s[1].total
  {
    var income := PeriodEntries(f.rows, "INCOME", g);
    var expense := PeriodEntries(f.rows, "EXPENSE", g);
    var ps := Keys(income + expense);
    KeySetAppend(income, expense);
    CombineColumnTotals(income, expense, ps);
    SumsCover(income, ps);
    SumsCover(expense, ps);
    PeriodEntriesTotal(f.rows, "INCOME", g);
    PeriodEntriesTotal(f.rows, "EXPENSE", g);
  }
}

=== FILE: table.dfy ===
/** The tabular dataset the cleaner and the summarizer work on: a set of
    column names and an ordered sequence of rows, each row a map from column
    name to a nullable cell. A row's position in the sequence is its
    zero-based index, so every frame is already "renumbered from zero". */
module Table {

  datatype Option<+T> = None | Some(value: T)

  type YearNumber = y: int | 0 <= y <= 9999
  type MonthNumber = m: int | 1 <= m <= 12 witness 1
  type DayNumber = d: int | 1 <= d <= 31 witness 1

  /** A calendar date (a pandas timestamp at midnight). */
  datatype Date = Date(year: YearNumber, month: MonthNumber, day: DayNumber)

  /** One cell: a null marker (NaN / NaT / None), raw text, an exact amount
      (integer cents), or a parsed date. */
  datatype Cell = Missing | Text(s: string) | Number(n: int) | When(date: Date)

  type Row = map<string, Cell>

  datatype Frame = Frame(columns: set<string>, rows: seq<Row>)

  /** Every row has exactly the frame's columns. */
  predicate WellFormed(f: Frame) {
    forall i :: 0 <= i < |f.rows| ==> f.rows[i].Keys == f.columns
  }

  /** The cell of `r` in column `col`; a column the row lacks reads as null. */
  function Get(r: Row, col: string): Cell {
    if col in r then r[col] else Missing
  }

  /** The errors the core raises: a `KeyError` naming columns, and the
      `AttributeError` of the `.dt` accessor on a column that is not datetime. */
  datatype Error = KeyError(columns: seq<string>) | NotDatetime

  datatype Result<+T> = Ok(value: T) | Err(error: Error)
}
